=== FILE: README.md ===
# Business-analysis chat: a Dafny model of its decision logic

The chat tool (`chat/chat/chat.py`) keeps a store of companies, each saved under its name. For each company it keeps
the registration figures and an "analysis". It answers typed commands and free-text
questions about the store. This project models the parts of the tool that decide things,
as pure functions over immutable data, and proves what they promise.

- `options.dfy` (`Options`): the optional value used for lookups and parsed numbers.
- `text.dfy` (`Text`): the string helpers the tool relies on.
  - `str.lower` restricted to ASCII and Latin-1.
  - `strip`, using Python's whitespace set.
  - substring containment, and `split()`.
  - the fallback annotators `tokenize_simple` and `pos_tag_simple`.
- `scoring.dfy` (`Scoring`): the financial half of `generar_analisis_nlp`.
  - the four indicators, with infinity as an extended real;
  - the four five-rung points ladders, the score and the six categories;
  - the recommendation bullets of the full report (`mostrar_analisis_texto`) and of
    `mostrar_recomendaciones`.
- `registry.dfy` (`Registry`): the company store.
  - It is a sequence with unique names, in the dictionary's insertion order.
  - An overwrite keeps its position; a new key goes last.
  - Operations: the analysis record, `listar_empresas`, the `buscar_empresas` filter, the
    `analizar_empresa` lookup and its suggestions, `mostrar_recomendaciones`, the best and
    worst picks, the sector tally of `mostrar_sectores`, and the store update of
    `registrar_empresa`.
- `chat.dfy` (`Chat`): `iniciar_chat`'s command reading and `analizar_texto`'s routing of
  questions.
  - The first matching rule wins in both.
  - One step of the loop is modelled, and then a whole session of typed lines.

Handlers return what they would show: the chosen company, list, tally or message kind.
They print nothing.

## Model

| member | source | states |
|---|---|---|
| Text.Lower | chat/chat/chat.py:36 | lowering keeps the length and lowers every character; no upper-case letter is left |
| Text.LowerIdempotent | chat/chat/chat.py:458 | lowering an already lowered question changes nothing |
| Text.Strip | chat/chat/chat.py:585 | the stripped line starts and ends with non-whitespace |
| Text.StripShape | chat/chat/chat.py:585 | the input is some whitespace, then the stripped line, then some whitespace |
| Text.StripIdempotent | chat/chat/chat.py:597 | stripping an already stripped argument returns it unchanged |
| Text.StripLower | chat/chat/chat.py:585-587 | stripping then lowering equals lowering then stripping |
| Text.StripEmpty | chat/chat/chat.py:266 | a string strips to "" exactly when it is all whitespace |
| Text.ContainsIffOccurs | chat/chat/chat.py:251 | `needle in hay` holds exactly when the needle occurs at some position |
| Text.SplitWords | chat/chat/chat.py:40 | `split()` yields only non-empty, whitespace-free words |
| Text.SplitWordsChars | chat/chat/chat.py:40 | every character of every word comes from the split string |
| Text.SplitJoinRoundTrip | chat/chat/chat.py:40 | splitting a space-joined list of words gives the same words back |
| Text.SplitWordsAppend | chat/chat/chat.py:40 | splitting two texts joined by a space gives the words of the first, then those of the second |
| Text.RemovePunctuation | chat/chat/chat.py:38 | a character survives exactly when it was present and is not in `string.punctuation`; the result is no longer than the input |
| Text.RemovePunctuationAppend | chat/chat/chat.py:38 | the removal distributes over concatenation, so with the two facts above it keeps the other characters, their order and their repeats |
| Text.SplitWordsCovers | chat/chat/chat.py:40 | every non-whitespace character of the split string lands in some word |
| Text.TokenizeSimple | chat/chat/chat.py:33-40 | every token is non-empty and lower case, with no whitespace and no punctuation |
| Text.TokenizeSimpleCovers | chat/chat/chat.py:33-40 | every token character comes from the lowered text, and every lowered character that is neither whitespace nor punctuation lands in some token |
| Text.TokenizeSimpleIgnoresCase | chat/chat/chat.py:36 | lowering the text first does not change the tokens |
| Text.PosTagSimple | chat/chat/chat.py:42-45 | one pair per token, in order, and every tag is "NN" |
| Text.PosTagSimpleKeepsTokens | chat/chat/chat.py:42-45 | dropping the tags gives back exactly the input tokens |
| Scoring.ComputeIndicators | chat/chat/chat.py:363-366 | liquidity and debt ratio are infinite exactly when their denominator is not positive; margin and productivity are 0 when theirs is not positive |
| Scoring.IndicatorsAreRatios | chat/chat/chat.py:363-366 | with a positive denominator, each indicator is the ratio it names (assets over debt, profit percent of annual value, and so on) |
| Scoring.ZeroDenominators | chat/chat/chat.py:363-425 | debt <= 0 gives 25 liquidity points; assets <= 0, annual value <= 0 or employees <= 0 give 5 points on their ladder |
| Scoring.LiquidityPoints | chat/chat/chat.py:380-389 | the liquidity ladder awards one of 5, 10, 15, 20, 25 |
| Scoring.MarginPoints | chat/chat/chat.py:392-401 | the margin ladder awards one of 5, 10, 15, 20, 25 |
| Scoring.DebtRatioPoints | chat/chat/chat.py:404-413 | the debt-ratio ladder awards one of 5, 10, 15, 20, 25 |
| Scoring.ProductivityPoints | chat/chat/chat.py:416-425 | the productivity ladder awards one of 5, 10, 15, 20, 25 |
| Scoring.RungsReached | chat/chat/chat.py:380-425 | the number of thresholds a value reaches is at most the number of thresholds |
| Scoring.LaddersCountRungs | chat/chat/chat.py:380-425 | each first-match ladder is worth 5 plus 5 per rung reached, which is how the ordered thresholds are read |
| Scoring.LaddersMonotone | chat/chat/chat.py:380-425 | more liquidity, margin or productivity, or less debt, never loses points |
| Scoring.Score | chat/chat/chat.py:376-425 | the score is a multiple of 5 between 20 and 100 |
| Scoring.CategoryOf | chat/chat/chat.py:427-445 | the category is the best one whose threshold (85/70/55/40/25) the score reaches; a boundary score gets the higher category |
| Scoring.CategoryMonotone | chat/chat/chat.py:427-445 | a higher score never gets a worse category |
| Scoring.LabelsDistinct | chat/chat/chat.py:427-445 | different categories carry different labels |
| Scoring.Evaluate | chat/chat/chat.py:376-452 | the stored evaluation: 20 points plus 5 for every threshold the four indicators reach (a multiple of 5 in [20, 100]), out of 100, with the best category that score admits and that category's description sentence |
| Scoring.CriticalIffAllWorst | chat/chat/chat.py:380-445 | "Crítica" happens exactly when all four ladders give their lowest 5 points |
| Scoring.ExampleGood | chat/chat/chat.py:363-445 | annual value 500M, profit 50M, 10 employees, assets 200M and debt 100M give the ratios 2, 10%, 50% and 50M, which score 65, "Buena" |
| Scoring.ExampleDebtFree | chat/chat/chat.py:363-445 | a debt-free company (annual value 100, no profit, one employee, assets 100) gets infinite liquidity and scores 60, "Buena" |
| Scoring.AdviceFor | chat/chat/chat.py:207-222 | the list is never empty; it holds a concern exactly when that concern's test fails; the bullets follow the test order; the "healthy" bullet appears, and then alone, exactly when no test fails |
| Scoring.PhraseAdvice | chat/chat/chat.py:207-222 | the bullet list built test by test equals the advice of `AdviceFor`, worded bullet by bullet |
| Scoring.ReportFollowsAdvice | chat/chat/chat.py:207-222 | the full report's bullets are `AdviceFor`'s advice in the report's wording |
| Scoring.AnswerFollowsAdvice | chat/chat/chat.py:505-521 | the recommendations answer lists the same advice, with the same tests and order, in its own wording |
| Scoring.InfiniteDebtRatioDrawsDebtAdvice | chat/chat/chat.py:213-215 | an infinite debt ratio (no assets) always draws the debt bullet |
| Registry.Annotate | chat/chat/chat.py:290-359 | on the fallback path the tokens are `tokenize_simple` of the lowered name and sector; the lemmas are the tokens; the tags keep the tokens and are all "NN"; both embeddings are the zero vector of length 10 |
| Registry.GenerateAnalysis | chat/chat/chat.py:286-454 | the stored indicators are the computed ones, and the evaluation is the one they score |
| Registry.Get | chat/chat/chat.py:279 | the lookup finds a company stored under that name exactly when the name is a key |
| Registry.GetAt | chat/chat/chat.py:279 | with unique keys, each stored company is the one its own key finds |
| Registry.Put | chat/chat/chat.py:154 | after `store[name] = c` the name finds `c`; an existing key keeps its position; a new key goes last; all other entries are kept; keys stay unique |
| Registry.PutKeepsOtherKeys | chat/chat/chat.py:154 | the lookup of any other name is unchanged |
| Registry.Matching | chat/chat/chat.py:247-253 | a company is collected exactly when the lowered term occurs in its lowered name or lowered sector |
| Registry.MatchingAppend | chat/chat/chat.py:250-252 | the filter keeps store order: it distributes over concatenation |
| Registry.MatchingIgnoresCase | chat/chat/chat.py:247 | the case of the search term never matters |
| Registry.SearchCompanies | chat/chat/chat.py:242-263 | an empty store gives its message; no match gives "not found" with the lowered term; otherwise the non-empty matches in store order |
| Registry.Suggestions | chat/chat/chat.py:272 | a key is suggested exactly when it contains the query, ignoring case; there are at most as many as companies |
| Registry.SuggestionsAppend | chat/chat/chat.py:272 | the suggestions distribute over concatenation, so they follow store order |
| Registry.AnalyzeCompany | chat/chat/chat.py:265-284 | an empty name gives its message; a missing key gives the suggestions; otherwise that company's full report with its bullets |
| Registry.RecommendationsFor | chat/chat/chat.py:494-524 | a missing key gives nothing; otherwise the answer's bullets for that company's indicators |
| Registry.BestIndex | chat/chat/chat.py:531-538 | the pick has the maximum score; no earlier company ties it (strict `>`); there is no pick exactly when every score is negative, since the search starts at -1 and only moves on a strict `>` |
| Registry.WorstIndex | chat/chat/chat.py:550-557 | on a non-empty store the pick has the minimum score, and no earlier company ties it (strict `<`) |
| Registry.ShowBest | chat/chat/chat.py:526-543 | an empty store gives its message; the pick fails exactly when every score is negative, that is at most -1; otherwise the first company with the highest score |
| Registry.ShowWorst | chat/chat/chat.py:545-562 | an empty store gives its message; otherwise the first company with the lowest score; it never fails |
| Registry.BestNeverAbortsOnWellFormed | chat/chat/chat.py:531-540 | on a store the chat built, the best-company query always has a pick to show |
| Registry.Bump | chat/chat/chat.py:571-575 | a known sector is incremented in place; a new sector goes last with count 1; other sectors are untouched |
| Registry.BumpValid | chat/chat/chat.py:571-575 | one increment keeps the tally free of duplicates and in step with its keys |
| Registry.TallySectorsCounts | chat/chat/chat.py:569-575 | the tally lists each sector of the store once, lists no other sector, and counts each one's companies |
| Registry.TallyAddsUp | chat/chat/chat.py:569-575 | the counts add up to the number of companies |
| Registry.ListCompanies | chat/chat/chat.py:230-240 | an empty store gives its message; otherwise every company, in store order |
| Registry.TallyFirstOccurrenceOrder | chat/chat/chat.py:569-578 | the tally lists the sectors in the order their first company appears in the store |
| Registry.ShowSectors | chat/chat/chat.py:564-579 | an empty store gives its message; otherwise the sector tally with its counts, listed in first-occurrence order |
| Registry.Register | chat/chat/chat.py:113-161 | see the Register note below |
| Registry.RegisterPreservesWellFormed | chat/chat/chat.py:121-154 | registration keeps keys unique and every stored analysis consistent with its figures |
| Chat.ReadCommand | chat/chat/chat.py:587-605 | see the ReadCommand note below |
| Chat.ParseCommandStrips | chat/chat/chat.py:585 | surrounding whitespace never changes how a line is read |
| Chat.ParseCommandIgnoresCase | chat/chat/chat.py:587-600 | a lowered line reads as the same command, with only its argument lowered |
| Chat.SearchTermNotEmpty | chat/chat/chat.py:596-598 | "buscar " always hands on a non-empty term |
| Chat.AnalyzeNameNotEmpty | chat/chat/chat.py:599-601 | "analizar " always hands on a non-empty name, so that command never reaches the empty-name message |
| Chat.SearchRoundTrip | chat/chat/chat.py:596-598 | typing "buscar " before a stripped, non-empty term searches for exactly that term |
| Chat.AnalyzeRoundTrip | chat/chat/chat.py:599-601 | typing "analizar " before a stripped, non-empty name analyzes exactly that name |
| Chat.FirstMentioned | chat/chat/chat.py:461-462 | the first company, in store order, whose lowered key occurs in the lowered question |
| Chat.ClassifyQuestion | chat/chat/chat.py:456-492 | see the ClassifyQuestion note below |
| Chat.ClassifyIgnoresCase | chat/chat/chat.py:458 | the case of a question never changes its route |
| Chat.EmptyNameCapturesQuestions | chat/chat/chat.py:461-475 | a company stored under "" as the first key captures every question |
| Chat.Answer | chat/chat/chat.py:456-492 | each route gets its own reply: the figures, the advice bullets or the full report of the first company named; the best or worst pick; the store size; the sector tally; "not understood" exactly for unrouted questions |
| Chat.CountQuestionExample | chat/chat/chat.py:484-486 | "cuántas empresas hay", naming no company, is answered with the number of companies |
| Chat.Step | chat/chat/chat.py:583-605 | one turn: a goodbye exactly on "salir"; "ayuda", "listar", "buscar" and "analizar" reach their handlers; only "nueva empresa" changes the store, through registration; questions go to `analizar_texto`; well-formedness is kept |
| Chat.SessionGoodbyeOnlyLast | chat/chat/chat.py:587-589 | no reply follows the goodbye |
| Chat.SessionStopsAtQuit | chat/chat/chat.py:583-589 | at most one reply per turn; a session that leaves turns unread has just said goodbye |
| Chat.FirstQuit | chat/chat/chat.py:587-589 | the position of the first "salir" turn, or the number of turns when there is none |
| Chat.SessionFollowsCommands | chat/chat/chat.py:583-605 | a session answers every turn up to and including the first "salir", and none after it; a reply is the goodbye exactly when its turn is "salir" |
| Chat.SessionPreservesWellFormed | chat/chat/chat.py:583-605 | the store a session ends with is still well-formed |
| Chat.Run | chat/chat/chat.py:581-605 | on the typed lines: one reply per line up to and including the first line that strips and lowers to "salir", and none after it; the goodbye exactly on such a line; a well-formed store stays well-formed |
| Chat.SessionNeverAbortsBest | chat/chat/chat.py:526-543 | no reply of a session from a well-formed store is the failed best-company pick |

Notes on three rows:

- **Register**:
  - Registration is cancelled exactly when the name is a key and the answer does not lower
    to "s".
  - A rejected number aborts it.
  - Otherwise the name finds the new company. It holds the typed figures and sector, the
    given timestamp, and an analysis that matches its figures. The new store is the old one
    with that company put under its name: an existing key keeps its position, a new key goes
    last, and every other entry is unchanged.
  - When nothing is registered, the store is unchanged.
- **ReadCommand**: the keywords are exact matches on the lowered line, tried in this order:
  "salir", "ayuda", "nueva empresa", "listar". Then come the prefixes "buscar " and
  "analizar ". Their arguments come from the line itself, re-stripped. Anything else is a
  free-text question.
- **ClassifyQuestion**: a question that names a company goes to the first company it names.
  - It gets that company's figures if the question asks for "indicadores" or "financi".
  - Otherwise it gets advice if the question asks for "recomend".
  - Otherwise it gets the full report.
  - A question that names no company tries best, worst, count and sectors, in that order.

Both recommendation lists come from one definition, `Scoring.Recommendations`, with the
wording as a parameter. The two source copies differ only in wording: the tests, their
order and the fallback are the same. So the two recommendation lists fire on the same
conditions by construction. `ReportFollowsAdvice` and `AnswerFollowsAdvice` tie both to
`AdviceFor`, through `PhraseAdvice`.

## Left out

- Console I/O is left out: the menu loop's blocking `input()` and every `print`. Handlers return values instead.
  - Each typed line is an `Input`.
  - The registration dialogue's answers are a `RegistrationForm`, supplied with the line.
  - The text of `mostrar_ayuda` is the reply `HelpText`.
- Report and table formatting (`:,.0f`, `:.2f`, column padding, `upper()` of titles) is left out. Replies carry the values the formatting would show.
- JSON loading and saving (`chat/chat/chat.py:83-101`) is left out. So is the clock: the registration timestamp is a parameter.
- The linguistic libraries are left out: NLTK downloads, `word_tokenize`, `pos_tag`, `WordNetLemmatizer`, and spaCy vectors. Only the path without those libraries is modelled:
  - `tokenize_simple` on the lowered text;
  - tokens as their own lemmas;
  - "NN" tags;
  - zero vectors of length 10.
- Registry.Annotate: the tokenizer is applied to the lowered name and sector. The library path's `word_tokenize` is not modelled. Nor is the per-call fallback used when a library is present but a call fails: it splits the lowered text with `split()`, keeping punctuation (`chat/chat/chat.py:294-297`), and tags every token "UNK" (`chat/chat/chat.py:328-331`).
- IEEE floating point is left out. Indicators are exact `real`s. Float division can differ at an exact threshold, such as a margin of exactly 10%.
- Python's `float()`/`int()` parsing, and the removal of `,` and `.` before it, are left out. A parsed field is an `Option`, where `None` is a rejected answer. An answer that parses to `inf` or `nan` is not modelled.
- Text.Lower: `str.lower` is modelled for ASCII and Latin-1 letters only. It keeps the length. Other scripts' case mappings are left out.
- Registry.ShowBest: when every score is at most -1, `mostrar_mejor_empresa` dereferences `None` and the resulting `TypeError` ends the program. The model returns `Aborted` instead, and a `Session` carries on after that reply. `BestNeverAbortsOnWellFormed` and `SessionNeverAbortsBest` show this cannot happen on a store the chat built.
- Registry.Register: figures may be negative, because `registrar_empresa` never checks them (`chat/chat/chat.py:128-134`). An update overwrites the registration timestamp (`chat/chat/chat.py:150`).

=== FILE: chat.dfy ===
/**
  The conversation loop of the chat tool: how one input line is read as a command, how a
  free-text question is routed to a query, and how a session of lines runs until "salir".
 */
module Chat {
  import opened Options
  import opened Text
  import opened Scoring
  import opened Registry

  /** The commands `iniciar_chat` recognises; anything else is a free-text question. */
  datatype Command =
    | Quit
    | Help
    | NewCompany
    | List
    | Search(term: string)
    | Analyze(name: string)
    | Question(text: string)

  /**
    `iniciar_chat`'s reading of a stripped line: its lowered form is compared with the
    keywords in a fixed order, and the arguments of "buscar " and "analizar " are taken from
    the line itself (keeping their case) and stripped again.
   */
  function ReadCommand(entrada: string): (c: Command)
    ensures c.Quit? <==> Lower(entrada) == "salir"
    ensures c.Help? <==> Lower(entrada) == "ayuda"
    ensures c.NewCompany? <==> Lower(entrada) == "nueva empresa"
    ensures c.List? <==> Lower(entrada) == "listar"
    ensures c.Search? <==> "buscar " <= Lower(entrada)
    ensures c.Analyze? <==> "analizar " <= Lower(entrada)
    ensures c.Search? ==> |entrada| >= 7 && c.term == Strip(entrada[7..])
    ensures c.Analyze? ==> |entrada| >= 9 && c.name == Strip(entrada[9..])
    ensures c.Question? ==> c.text == entrada
  {
    var l := Lower(entrada);
    assert "buscar "[0] == 'b' && "analizar "[0] == 'a';
    if l == "salir" then Quit
    else if l == "ayuda" then Help
    else if l == "nueva empresa" then NewCompany
    else if l == "listar" then List
    else if "buscar " <= l then Search(Strip(entrada[7..]))
    else if "analizar " <= l then Analyze(Strip(entrada[9..]))
    else Question(entrada)
  }

  /** `entrada = input().strip()`, then the keyword tests. */
  function ParseCommand(raw: string): Command {
    ReadCommand(Strip(raw))
  }

  /** Surrounding whitespace never changes how a line is read. */
  lemma ParseCommandStrips(raw: string)
    ensures ParseCommand(Strip(raw)) == ParseCommand(raw)
  {
    StripIdempotent(Strip(raw));
  }

  /** The command with its argument lowered. */
  function LowerArgument(c: Command): Command {
    match c
    case Search(t) => Search(Lower(t))
    case Analyze(n) => Analyze(Lower(n))
    case Question(q) => Question(Lower(q))
    case _ => c
  }

  lemma KeywordsIgnoreCase(e: string)
    ensures ReadCommand(Lower(e)).Quit? <==> ReadCommand(e).Quit?
    ensures ReadCommand(Lower(e)).Help? <==> ReadCommand(e).Help?
    ensures ReadCommand(Lower(e)).NewCompany? <==> ReadCommand(e).NewCompany?
    ensures ReadCommand(Lower(e)).List? <==> ReadCommand(e).List?
    ensures ReadCommand(Lower(e)).Search? <==> ReadCommand(e).Search?
    ensures ReadCommand(Lower(e)).Analyze? <==> ReadCommand(e).Analyze?
  {
    LowerIdempotent(e);
  }

  /** The argument read from the lowered line is the lowered argument. */
  lemma LoweredArgument(e: string, k: nat)
    requires k <= |e|
    ensures Strip(Lower(e)[k..]) == Lower(Strip(e[k..]))
  {
    assert Lower(e)[k..] == Lower(e[k..]);
    StripLower(e[k..]);
  }

  lemma SearchIgnoresCase(e: string)
    requires ReadCommand(e).Search?
    ensures ReadCommand(Lower(e)) == Search(Lower(ReadCommand(e).term))
  {
    LowerIdempotent(e);
    LoweredArgument(e, 7);
  }

  lemma AnalyzeIgnoresCase(e: string)
    requires ReadCommand(e).Analyze?
    ensures ReadCommand(Lower(e)) == Analyze(Lower(ReadCommand(e).name))
  {
    LowerIdempotent(e);
    LoweredArgument(e, 9);
  }

  lemma ReadCommandIgnoresCase(e: string)
    ensures ReadCommand(Lower(e)) == LowerArgument(ReadCommand(e))
  {
    KeywordsIgnoreCase(e);
    match ReadCommand(e)
    case Search(_) => SearchIgnoresCase(e);
    case Analyze(_) => AnalyzeIgnoresCase(e);
    case _ =>
  }

  /**
    Keywords are matched regardless of case: reading the lowered line gives the same command,
    with only its argument lowered.
   */
  lemma ParseCommandIgnoresCase(raw: string)
    ensures ParseCommand(Lower(raw)) == LowerArgument(ParseCommand(raw))
  {
    StripLower(raw);
    ReadCommandIgnoresCase(Strip(raw));
  }

  /**
    The prefix test runs on the stripped line, so the character after the keyword's space is
    never the last one stripped away: the argument handed on is never empty.
   */
  lemma ArgumentAfter(e: string, k: nat)
    requires IsStripped(e)
    requires 0 < k <= |e| && IsSpace(e[k - 1])
    ensures Strip(e[k..]) != ""
  {
    var rest := e[k..];
    StripEmpty(rest);
    assert rest[|rest| - 1] == e[|e| - 1];
  }

  /** On a stripped line, a keyword ending in a space is always followed by a non-empty argument. */
  lemma KeywordArgument(e: string, keyword: string)
    requires IsStripped(e)
    requires |keyword| > 0 && keyword[|keyword| - 1] == ' ' && keyword <= Lower(e)
    ensures Strip(e[|keyword|..]) != ""
  {
    var k := |keyword|;
    assert Lower(e)[k - 1] == ' ' by {
      assert Lower(e)[..k][k - 1] == Lower(e)[k - 1];
    }
    assert IsSpace(e[k - 1]) by {
      assert Lower(e)[k - 1] == LowerChar(e[k - 1]);
    }
    ArgumentAfter(e, k);
  }

  /** `buscar_empresas` is never reached from the chat with an empty term. */
  lemma SearchTermNotEmpty(raw: string)
    requires ParseCommand(raw).Search?
    ensures ParseCommand(raw).term != ""
  {
    KeywordArgument(Strip(raw), "buscar ");
  }

  /** `analizar_empresa`'s empty-name message is never reached from the "analizar " command. */
  lemma AnalyzeNameNotEmpty(raw: string)
    requires ParseCommand(raw).Analyze?
    ensures ParseCommand(raw).name != ""
  {
    KeywordArgument(Strip(raw), "analizar ");
  }

  /** The lowered form of a keyword line starts with the lowered keyword. */
  lemma KeywordLine(keyword: string, arg: string)
    requires IsLower(keyword) && |keyword| > 0 && !IsSpace(keyword[0])
    requires IsStripped(arg) && arg != ""
    ensures Strip(keyword + arg) == keyword + arg
    ensures Lower(keyword + arg) == keyword + Lower(arg)
  {
    StripIdempotent(keyword + arg);
    LowerAppend(keyword, arg);
    LowerIdempotent(keyword);
  }

  /** A stripped keyword followed by a stripped argument reads as that keyword's command. */
  lemma KeywordPrefix(keyword: string, arg: string)
    requires IsLower(keyword) && |keyword| > 0 && !IsSpace(keyword[0])
    requires IsStripped(arg) && arg != ""
    ensures |keyword + arg| > |keyword|
    ensures Lower(keyword + arg)[..|keyword|] == keyword
    ensures (keyword + arg)[|keyword|..] == arg
  {
    KeywordLine(keyword, arg);
  }

  lemma ReadSearchLine(line: string, term: string)
    requires line == "buscar " + term
    requires IsStripped(term) && term != ""
    ensures ReadCommand(line) == Search(term)
  {
    KeywordPrefix("buscar ", term);
    assert Lower(line)[0] == 'b';
    StripIdempotent(term);
  }

  lemma ReadAnalyzeLine(line: string, name: string)
    requires line == "analizar " + name
    requires IsStripped(name) && name != ""
    ensures ReadCommand(line) == Analyze(name)
  {
    KeywordPrefix("analizar ", name);
    assert Lower(line)[0] == 'a' && Lower(line)[1] == 'n';
    StripIdempotent(name);
  }

  /** Typing "buscar " before a term gives the search for exactly that term. */
  lemma SearchRoundTrip(term: string)
    requires IsStripped(term) && term != ""
    ensures ParseCommand("buscar " + term) == Search(term)
  {
    KeywordLine("buscar ", term);
    ReadSearchLine("buscar " + term, term);
  }

  /** Typing "analizar " before a name asks for exactly that company. */
  lemma AnalyzeRoundTrip(name: string)
    requires IsStripped(name) && name != ""
    ensures ParseCommand("analizar " + name) == Analyze(name)
  {
    KeywordLine("analizar ", name);
    ReadAnalyzeLine("analizar " + name, name);
  }

  /** What a question about one company asks for. */
  datatype Aspect = Figures | Advising | WholeReport

  /** Where `analizar_texto` sends a question. */
  datatype Intent =
    | AboutCompany(index: nat, aspect: Aspect)
    | BestCompany
    | WorstCompany
    | CompanyCount
    | SectorList
    | Unrecognised

  /** The question names the company: its lowered key occurs in the lowered question. */
  predicate Mentions(question: string, c: Company) {
    Contains(Lower(question), Lower(c.name))
  }

  /** The first company, in store order from `from` on, that the question names. */
  function FirstMentioned(store: Store, question: string, from: nat): (r: Option<nat>)
    requires from <= |store|
    ensures r.None? <==> forall j :: from <= j < |store| ==> !Mentions(question, store[j])
    ensures r.Some? ==> from <= r.value < |store| && Mentions(question, store[r.value])
    ensures r.Some? ==> forall j :: from <= j < r.value ==> !Mentions(question, store[j])
    decreases |store| - from
  {
    if from == |store| then None
    else if Mentions(question, store[from]) then Some(from)
    else FirstMentioned(store, question, from + 1)
  }

  predicate AsksFigures(q: string) {
    Contains(q, "indicadores") || Contains(q, "financi")
  }

  predicate AsksAdvice(q: string) {
    Contains(q, "recomend")
  }

  predicate AsksBest(q: string) {
    Contains(q, "mejor empresa") || Contains(q, "empresa con mejor")
  }

  predicate AsksWorst(q: string) {
    Contains(q, "peor empresa") || Contains(q, "empresa con peor")
  }

  predicate AsksCount(q: string) {
    Contains(q, "cuántas empresas") || Contains(q, "número de empresas")
  }

  predicate AsksSectors(q: string) {
    Contains(q, "sectores")
  }

  /**
    `analizar_texto`'s routing. A question naming a company is about the first such company;
    only a question naming none reaches the general queries, which are tried in the order
    best, worst, count, sectors.
   */
  function ClassifyQuestion(store: Store, question: string): (i: Intent)
    ensures i.AboutCompany? <==> exists k :: 0 <= k < |store| && Mentions(question, store[k])
    ensures i.AboutCompany? ==> i.index < |store| && Mentions(question, store[i.index])
    ensures i.AboutCompany? ==> forall j :: 0 <= j < i.index ==> !Mentions(question, store[j])
    ensures i.AboutCompany? ==> (i.aspect == Figures <==> AsksFigures(Lower(question)))
    ensures i.AboutCompany? ==> (i.aspect == Advising <==> !AsksFigures(Lower(question)) && AsksAdvice(Lower(question)))
    ensures i.BestCompany? <==> !i.AboutCompany? && AsksBest(Lower(question))
    ensures i.WorstCompany? <==> !i.AboutCompany? && !AsksBest(Lower(question)) && AsksWorst(Lower(question))
    ensures i.CompanyCount? <==> !i.AboutCompany? && !AsksBest(Lower(question)) && !AsksWorst(Lower(question))
                                 && AsksCount(Lower(question))
    ensures i.SectorList? <==> !i.AboutCompany? && !AsksBest(Lower(question)) && !AsksWorst(Lower(question))
                               && !AsksCount(Lower(question)) && AsksSectors(Lower(question))
  {
    var q := Lower(question);
    match FirstMentioned(store, question, 0)
    case Some(k) =>
      var aspect := if AsksFigures(q) then Figures else if AsksAdvice(q) then Advising else WholeReport;
      AboutCompany(k, aspect)
    case None =>
      if AsksBest(q) then BestCompany
      else if AsksWorst(q) then WorstCompany
      else if AsksCount(q) then CompanyCount
      else if AsksSectors(q) then SectorList
      else Unrecognised
  }

  /** Routing lowers the question first, so its case never matters. */
  lemma ClassifyIgnoresCase(store: Store, question: string)
    ensures ClassifyQuestion(store, Lower(question)) == ClassifyQuestion(store, question)
  {
    LowerIdempotent(question);
  }

  /**
    A company registered under the empty name is named by every question, so once it is the
    first key every question is routed to it and the general queries become unreachable.
   */
  lemma EmptyNameCapturesQuestions(store: Store, question: string)
    requires |store| > 0 && store[0].name == ""
    ensures ClassifyQuestion(store, question) == AboutCompany(0, ClassifyQuestion(store, question).aspect)
  {
    assert Mentions(question, store[0]);
  }

  /** Everything the chat can answer with. */
  datatype Reply =
    | Goodbye
    | HelpText
    | RegistrationReply(registration: RegistrationOutcome)
    | Listing(companies: StoreView<Store>)
    | SearchReply(search: SearchOutcome)
    | AnalyzeReply(analysis: AnalyzeOutcome)
    | FiguresReply(name: string, liquidity: ExtReal, margin: real, debtRatio: ExtReal)
    | RecommendationsReply(name: string, bullets: Option<seq<string>>)
    | BestReply(best: Pick)
    | WorstReply(worst: Pick)
    | CountReply(count: nat)
    | SectorsReply(sectors: StoreView<Tally>)
    | NotUnderstood

  /**
    `analizar_texto` together with the fallback message of `iniciar_chat`: the reply to a
    free-text question.
   */
  function Answer(store: Store, question: string): (r: Reply)
    ensures r.NotUnderstood? <==> ClassifyQuestion(store, question).Unrecognised?
    ensures r.CountReply? ==> r.count == |store|
    ensures r.FiguresReply? ==> exists k :: 0 <= k < |store| && Mentions(question, store[k]) && r.name == store[k].name
                                 && r.liquidity == store[k].analysis.indicators.liquidity
                                 && r.margin == store[k].analysis.indicators.margin
                                 && r.debtRatio == store[k].analysis.indicators.debtRatio
    ensures r.RecommendationsReply? ==> r.name in Names(store) && r.bullets.Some?
    ensures r.BestReply? ==> r.best == ShowBest(store)
    ensures r.WorstReply? ==> r.worst == ShowWorst(store)
    ensures var i := ClassifyQuestion(store, question);
            i.AboutCompany? && i.aspect == Figures ==>
              r == FiguresReply(store[i.index].name, store[i.index].analysis.indicators.liquidity,
                                store[i.index].analysis.indicators.margin,
                                store[i.index].analysis.indicators.debtRatio)
    ensures var i := ClassifyQuestion(store, question);
            i.AboutCompany? && i.aspect == Advising ==>
              r == RecommendationsReply(store[i.index].name, RecommendationsFor(store, store[i.index].name))
    ensures var i := ClassifyQuestion(store, question);
            i.AboutCompany? && i.aspect == WholeReport ==>
              r == AnalyzeReply(AnalyzeCompany(store, store[i.index].name))
    ensures ClassifyQuestion(store, question).BestCompany? ==> r == BestReply(ShowBest(store))
    ensures ClassifyQuestion(store, question).WorstCompany? ==> r == WorstReply(ShowWorst(store))
    ensures ClassifyQuestion(store, question).CompanyCount? ==> r == CountReply(|store|)
    ensures ClassifyQuestion(store, question).SectorList? ==> r == SectorsReply(ShowSectors(store))
  {
    match ClassifyQuestion(store, question)
    case AboutCompany(k, aspect) =>
      var c := store[k];
      assert Names(store)[k] == c.name;
      (match aspect
       case Figures =>
         FiguresReply(c.name, c.analysis.indicators.liquidity, c.analysis.indicators.margin,
                      c.analysis.indicators.debtRatio)
       case Advising => RecommendationsReply(c.name, RecommendationsFor(store, c.name))
       case WholeReport => AnalyzeReply(AnalyzeCompany(store, c.name)))
    case BestCompany => BestReply(ShowBest(store))
    case WorstCompany => WorstReply(ShowWorst(store))
    case CompanyCount => CountReply(|store|)
    case SectorList => SectorsReply(ShowSectors(store))
    case Unrecognised => NotUnderstood
  }

  /** The sample count question is already lower case. */
  lemma CountQuestionIsLower(q: string)
    requires q == "cuántas empresas hay"
    ensures Lower(q) == q
  {
    assert IsLower(q);
    LowerIdempotent(q);
  }

  /** The sample count question holds the count phrase. */
  lemma CountQuestionAsksCount(q: string)
    requires q == "cuántas empresas hay"
    ensures AsksCount(q)
  {
    assert OccursAt(q, "cuántas empresas", 0);
    ContainsIffOccurs(q, "cuántas empresas");
  }

  /** The sample count question holds neither a best- nor a worst-company phrase. */
  lemma CountQuestionAsksNoRanking(q: string)
    requires q == "cuántas empresas hay"
    ensures !AsksBest(q) && !AsksWorst(q)
  {
    assert 'j' !in q && 'o' !in q;
    LacksCharacter(q, "mejor empresa", 'j');
    LacksCharacter(q, "empresa con mejor", 'j');
    LacksCharacter(q, "peor empresa", 'o');
    LacksCharacter(q, "empresa con peor", 'o');
  }

  /** A count question that names no company is answered with the number of companies. */
  lemma CountQuestionExample(store: Store, q: string)
    requires q == "cuántas empresas hay"
    requires forall k :: 0 <= k < |store| ==> !Mentions(q, store[k])
    ensures Answer(store, q) == CountReply(|store|)
  {
    CountQuestionIsLower(q);
    CountQuestionAsksCount(q);
    CountQuestionAsksNoRanking(q);
    assert ClassifyQuestion(store, q) == CompanyCount;
  }

  /** A needle holding a character the haystack lacks does not occur in it. */
  lemma {:induction false} LacksCharacter(hay: string, needle: string, c: char)
    requires c in needle && c !in hay
    ensures !Contains(hay, needle)
  {
    ContainsIffOccurs(hay, needle);
  }

  /**
    One command of the conversation. `form` stands for the answers the registration dialogue
    reads after "nueva empresa"; no other command looks at it.
   */
  function Step(store: Store, command: Command, form: RegistrationForm): (r: (Store, Reply))
    ensures r.1 == Goodbye <==> command.Quit?
    ensures !command.NewCompany? ==> r.0 == store
    ensures command.NewCompany? ==> r == (Register(store, form).0, RegistrationReply(Register(store, form).1))
    ensures command.Question? ==> r.1 == Answer(store, command.text)
    ensures command.Help? ==> r.1 == HelpText
    ensures command.List? ==> r.1 == Listing(ListCompanies(store))
    ensures command.Search? ==> r.1 == SearchReply(SearchCompanies(store, command.term))
    ensures command.Analyze? ==> r.1 == AnalyzeReply(AnalyzeCompany(store, command.name))
    ensures r.1.BestReply? ==> r.1.best == ShowBest(store)
    ensures WellFormed(store) ==> WellFormed(r.0)
  {
    match command
    case Quit => (store, Goodbye)
    case Help => (store, HelpText)
    case NewCompany =>
      assert WellFormed(store) ==> WellFormed(Register(store, form).0) by {
        if WellFormed(store) {
          RegisterPreservesWellFormed(store, form);
        }
      }
      var (s, o) := Register(store, form);
      (s, RegistrationReply(o))
    case List => (store, Listing(ListCompanies(store)))
    case Search(t) => (store, SearchReply(SearchCompanies(store, t)))
    case Analyze(n) => (store, AnalyzeReply(AnalyzeCompany(store, n)))
    case Question(q) => (store, Answer(store, q))
  }

  /** One turn of the conversation: a command and the registration answers that follow it. */
  datatype Turn = Turn(command: Command, form: RegistrationForm)

  /**
    `iniciar_chat`'s loop over the turns: each is answered until the goodbye, which ends the
    session.
   */
  function Session(store: Store, turns: seq<Turn>): (r: (Store, seq<Reply>))
    decreases |turns|
  {
    if |turns| == 0 then (store, [])
    else
      var (s, reply) := Step(store, turns[0].command, turns[0].form);
      if reply == Goodbye then (s, [reply])
      else
        var (t, rest) := Session(s, turns[1..]);
        (t, [reply] + rest)
  }

  /** One typed line and the registration answers that follow it. */
  datatype Input = Input(line: string, form: RegistrationForm)

  /** Reads every typed line as a command. */
  function ReadTurns(inputs: seq<Input>): (r: seq<Turn>)
    ensures |r| == |inputs|
    ensures forall i :: 0 <= i < |inputs| ==> r[i] == Turn(ParseCommand(inputs[i].line), inputs[i].form)
  {
    seq(|inputs|, i requires 0 <= i < |inputs| => Turn(ParseCommand(inputs[i].line), inputs[i].form))
  }

  /**
    The session started by `iniciar_chat` on the lines a user types: one reply per line up to
    and including the first line that reads "salir", the goodbye exactly on that line, and a
    well-formed store stays well-formed.
   */
  function Run(store: Store, inputs: seq<Input>): (r: (Store, seq<Reply>))
    ensures |r.1| <= |inputs|
    ensures GoodbyeOnlyLast(r.1)
    ensures WellFormed(store) ==> WellFormed(r.0)
    ensures var q := FirstQuit(ReadTurns(inputs));
            && (q < |inputs| ==> Lower(Strip(inputs[q].line)) == "salir")
            && (forall j :: 0 <= j < q ==> Lower(Strip(inputs[j].line)) != "salir")
            && |r.1| == if q < |inputs| then q + 1 else |inputs|
    ensures forall i :: 0 <= i < |r.1| ==> (r.1[i] == Goodbye <==> Lower(Strip(inputs[i].line)) == "salir")
  {
    var turns := ReadTurns(inputs);
    SessionFollowsCommands(store, turns);
    SessionStopsAtQuit(store, turns);
    SessionGoodbyeOnlyLast(store, turns);
    assert WellFormed(store) ==> WellFormed(Session(store, turns).0) by {
      if WellFormed(store) {
        SessionPreservesWellFormed(store, turns);
      }
    }
    Session(store, turns)
  }

  /** No reply but the last one is a goodbye. */
  predicate GoodbyeOnlyLast(replies: seq<Reply>) {
    forall i :: 0 <= i < |replies| - 1 ==> replies[i] != Goodbye
  }

  /** Nothing is answered after the first "salir". */
  lemma SessionGoodbyeOnlyLast(store: Store, turns: seq<Turn>)
    ensures GoodbyeOnlyLast(Session(store, turns).1)
  {
    SessionFollowsCommands(store, turns);
    var replies := Session(store, turns).1;
    forall i | 0 <= i < |replies| - 1 ensures replies[i] != Goodbye {
      assert i < FirstQuit(turns);
    }
  }

  /**
    Every turn gets one reply, and the session ends early only on a goodbye: with fewer
    replies than turns, the last reply is the goodbye.
   */
  lemma {:induction false} SessionStopsAtQuit(store: Store, turns: seq<Turn>)
    ensures |Session(store, turns).1| <= |turns|
    ensures |Session(store, turns).1| < |turns| ==>
              |Session(store, turns).1| > 0 && Session(store, turns).1[|Session(store, turns).1| - 1] == Goodbye
    decreases |turns|
  {
    if |turns| > 0 {
      var (s, reply) := Step(store, turns[0].command, turns[0].form);
      if reply != Goodbye {
        SessionStopsAtQuit(s, turns[1..]);
        var rest := Session(s, turns[1..]).1;
        assert Session(store, turns).1 == [reply] + rest;
      }
    }
  }

  /** The position of the first "salir" among the turns, or their number when there is none. */
  function FirstQuit(turns: seq<Turn>): (n: nat)
    ensures n <= |turns|
    ensures n < |turns| ==> turns[n].command.Quit?
    ensures forall j :: 0 <= j < n ==> !turns[j].command.Quit?
    decreases |turns|
  {
    if |turns| == 0 then 0
    else if turns[0].command.Quit? then 0
    else 1 + FirstQuit(turns[1..])
  }

  /**
    A session answers every turn up to and including the first "salir", and no turn after it;
    a reply is the goodbye exactly when its turn is "salir".
   */
  lemma {:induction false} SessionFollowsCommands(store: Store, turns: seq<Turn>)
    ensures |Session(store, turns).1| == if FirstQuit(turns) < |turns| then FirstQuit(turns) + 1 else |turns|
    ensures forall i :: 0 <= i < |Session(store, turns).1| ==>
              (Session(store, turns).1[i] == Goodbye <==> turns[i].command.Quit?)
    decreases |turns|
  {
    if |turns| > 0 {
      var (s, reply) := Step(store, turns[0].command, turns[0].form);
      if reply != Goodbye {
        SessionFollowsCommands(s, turns[1..]);
        var rest := Session(s, turns[1..]).1;
        assert Session(store, turns).1 == [reply] + rest;
        assert FirstQuit(turns) == 1 + FirstQuit(turns[1..]);
        forall i | 1 <= i < |Session(store, turns).1|
          ensures Session(store, turns).1[i] == Goodbye <==> turns[i].command.Quit?
        {
          assert Session(store, turns).1[i] == rest[i - 1];
          assert turns[1..][i - 1] == turns[i];
        }
      }
    }
  }

  /** Every store a session passes through keeps unique keys and up-to-date analyses. */
  lemma {:induction false} SessionPreservesWellFormed(store: Store, turns: seq<Turn>)
    requires WellFormed(store)
    ensures WellFormed(Session(store, turns).0)
    decreases |turns|
  {
    if |turns| > 0 {
      var (s, reply) := Step(store, turns[0].command, turns[0].form);
      if reply != Goodbye {
        SessionPreservesWellFormed(s, turns[1..]);
      }
    }
  }

  /**
    Starting from a well-formed store, no reply of a session is the failed best-company pick:
    every score the scorer stores is at least 20 and so beats the -1 start.
   */
  lemma {:induction false} SessionNeverAbortsBest(store: Store, turns: seq<Turn>)
    requires WellFormed(store)
    ensures forall i :: 0 <= i < |Session(store, turns).1| ==> Session(store, turns).1[i] != BestReply(Aborted)
    decreases |turns|
  {
    if |turns| > 0 {
      var (s, reply) := Step(store, turns[0].command, turns[0].form);
      BestNeverAbortsOnWellFormed(store);
      if reply != Goodbye {
        SessionNeverAbortsBest(s, turns[1..]);
        var rest := Session(s, turns[1..]).1;
        assert Session(store, turns).1 == [reply] + rest;
      }
    }
  }
}

=== FILE: options.dfy ===
/** The optional value used wherever the chat tool looks something up and may find nothing. */
module Options {

  datatype Option<+T> = None | Some(value: T)
}

=== FILE: registry.dfy ===
/**
  The company store of the chat tool: a name-keyed collection kept in insertion order (the
  iteration order of the dictionary the tool keeps), with the queries the chat answers from it
  and the registration step that inserts or overwrites one company.
 */
module Registry {
  import opened Options
  import opened Text
  import opened Scoring

  /** Length of the placeholder embedding stored when no word-vector model is loaded. */
  const EmbeddingSize: nat := 10

  /** The linguistic part of an analysis, as the degraded annotator produces it. */
  datatype Linguistics = Linguistics(
    nameTokens: seq<string>,
    sectorTokens: seq<string>,
    nameLemmas: seq<string>,
    sectorLemmas: seq<string>,
    nameTags: seq<(string, string)>,
    sectorTags: seq<(string, string)>,
    nameEmbedding: seq<real>,
    sectorEmbedding: seq<real>)

  function ZeroEmbedding(): (v: seq<real>)
    ensures |v| == EmbeddingSize
    ensures forall i :: 0 <= i < |v| ==> v[i] == 0.0
  {
    seq(EmbeddingSize, _ => 0.0)
  }

  /**
    Tokens, lemmas, tags and embeddings of the name and the sector when neither linguistic
    library is available: simple tokenization of the lowered text, tokens as their own lemmas,
    every token tagged "NN", and zero vectors.
   */
  function Annotate(name: string, sector: string): (l: Linguistics)
    ensures forall i :: 0 <= i < |l.nameTokens| ==> IsWord(l.nameTokens[i]) && IsLower(l.nameTokens[i])
    ensures forall i :: 0 <= i < |l.sectorTokens| ==> IsWord(l.sectorTokens[i]) && IsLower(l.sectorTokens[i])
    ensures l.nameLemmas == l.nameTokens && l.sectorLemmas == l.sectorTokens
    ensures Untag(l.nameTags) == l.nameTokens && Untag(l.sectorTags) == l.sectorTokens
    ensures |l.nameEmbedding| == |l.sectorEmbedding| == EmbeddingSize
    ensures l.nameTokens == TokenizeSimple(name) && l.sectorTokens == TokenizeSimple(sector)
    ensures forall i :: 0 <= i < |l.nameTags| ==> l.nameTags[i].1 == "NN"
    ensures forall i :: 0 <= i < |l.sectorTags| ==> l.sectorTags[i].1 == "NN"
    ensures l.nameEmbedding == ZeroEmbedding() && l.sectorEmbedding == ZeroEmbedding()
  {
    TokenizeSimpleIgnoresCase(name);
    TokenizeSimpleIgnoresCase(sector);
    var nt := TokenizeSimple(Lower(name));
    var st := TokenizeSimple(Lower(sector));
    PosTagSimpleKeepsTokens(nt);
    PosTagSimpleKeepsTokens(st);
    Linguistics(nt, st, nt, st, PosTagSimple(nt), PosTagSimple(st), ZeroEmbedding(), ZeroEmbedding())
  }

  /** The stored `analisis_nlp` record. */
  datatype Analysis = Analysis(linguistics: Linguistics, indicators: Indicators, evaluation: Evaluation)

  /** `generar_analisis_nlp` on the degraded annotator: the analysis of one company's data. */
  function GenerateAnalysis(name: string, sector: string, f: Financials): (a: Analysis)
    ensures a.indicators == ComputeIndicators(f)
    ensures a.evaluation == Evaluate(a.indicators)
  {
    var ind := ComputeIndicators(f);
    Analysis(Annotate(name, sector), ind, Evaluate(ind))
  }

  /** One stored company; its key in the store is its name. */
  datatype Company = Company(
    name: string,
    sector: string,
    fin: Financials,
    registeredAt: string,
    analysis: Analysis)

  type Store = seq<Company>

  function ScoreOf(c: Company): int {
    c.analysis.evaluation.score
  }

  predicate UniqueNames(store: Store) {
    forall i, j :: 0 <= i < j < |store| ==> store[i].name != store[j].name
  }

  /** The stored analysis is the one the scorer gives for the stored figures. */
  predicate Consistent(c: Company) {
    c.analysis == GenerateAnalysis(c.name, c.sector, c.fin)
  }

  /** Every store the chat builds has unique keys and up-to-date analyses. */
  predicate WellFormed(store: Store) {
    UniqueNames(store) && forall i :: 0 <= i < |store| ==> Consistent(store[i])
  }

  function Names(store: Store): (r: seq<string>)
    ensures |r| == |store|
    ensures forall i :: 0 <= i < |store| ==> r[i] == store[i].name
  {
    seq(|store|, i requires 0 <= i < |store| => store[i].name)
  }

  /** Position of the company keyed `name`, looked up from position `from` on. */
  function IndexFrom(store: Store, name: string, from: nat): (r: Option<nat>)
    requires from <= |store|
    ensures r.Some? ==> from <= r.value < |store| && store[r.value].name == name
    ensures r.Some? ==> forall j :: from <= j < r.value ==> store[j].name != name
    ensures r.None? <==> forall j :: from <= j < |store| ==> store[j].name != name
    decreases |store| - from
  {
    if from == |store| then None
    else if store[from].name == name then Some(from)
    else IndexFrom(store, name, from + 1)
  }

  /** `name in store`: the position of the key, if present. */
  function IndexOf(store: Store, name: string): (r: Option<nat>)
    ensures r.Some? ==> r.value < |store| && store[r.value].name == name
    ensures r.None? <==> name !in Names(store)
  {
    IndexFrom(store, name, 0)
  }

  /** `store[name]`, or nothing. */
  function Get(store: Store, name: string): (r: Option<Company>)
    ensures r.Some? ==> r.value in store && r.value.name == name
    ensures r.None? <==> name !in Names(store)
  {
    match IndexOf(store, name)
    case Some(i) => Some(store[i])
    case None => None
  }

  /** In a store with unique keys, the company at a position is the one its key finds. */
  lemma GetAt(store: Store, i: nat)
    requires UniqueNames(store) && i < |store|
    ensures Get(store, store[i].name) == Some(store[i])
  {
  }

  /**
    `store[c.name] = c`: a new key goes to the end, an existing key is overwritten in place
    and keeps its position.
   */
  function Put(store: Store, c: Company): (r: Store)
    ensures Get(r, c.name) == Some(c)
    ensures |r| == if c.name in Names(store) then |store| else |store| + 1
    ensures forall i :: 0 <= i < |store| && store[i].name != c.name ==> r[i] == store[i]
    ensures forall i :: 0 <= i < |r| ==> r[i] == c || (i < |store| && r[i] == store[i])
    ensures UniqueNames(store) ==> UniqueNames(r)
  {
    match IndexOf(store, c.name)
    case Some(i) =>
      var r := store[i := c];
      assert Names(r) == Names(store);
      assert IndexFrom(r, c.name, 0) == Some(i) by {
        IndexFromFinds(r, c.name, 0, i);
      }
      r
    case None =>
      var r := store + [c];
      assert IndexFrom(r, c.name, 0) == Some(|store|) by {
        IndexFromFinds(r, c.name, 0, |store|);
      }
      r
  }

  lemma IndexFromFinds(store: Store, name: string, from: nat, i: nat)
    requires from <= i < |store| && store[i].name == name
    requires forall j :: from <= j < i ==> store[j].name != name
    ensures IndexFrom(store, name, from) == Some(i)
    decreases i - from
  {
    if from < i {
      IndexFromFinds(store, name, from + 1, i);
    }
  }

  /** Overwriting or adding one company changes no other key's entry. */
  lemma PutKeepsOtherKeys(store: Store, c: Company, name: string)
    requires UniqueNames(store)
    requires name != c.name
    ensures Get(Put(store, c), name) == Get(store, name)
  {
    var r := Put(store, c);
    if name in Names(store) {
      var i :| 0 <= i < |store| && store[i].name == name;
      GetAt(store, i);
      assert r[i] == store[i];
      GetAt(r, i);
    } else {
      forall i | 0 <= i < |r| ensures r[i].name != name {
        if r[i] != c {
          assert Names(store)[i] == store[i].name;
        }
      }
    }
  }

  /** The search test: the lowered term occurs in the lowered name or the lowered sector. */
  predicate MatchesTerm(c: Company, term: string) {
    Contains(Lower(c.name), Lower(term)) || Contains(Lower(c.sector), Lower(term))
  }

  /** The companies `buscar_empresas` collects, in store order. */
  function Matching(store: Store, term: string): (r: Store)
    ensures forall c :: c in r <==> c in store && MatchesTerm(c, term)
    ensures |r| <= |store|
  {
    if |store| == 0 then []
    else (if MatchesTerm(store[0], term) then [store[0]] else []) + Matching(store[1..], term)
  }

  /** Matching keeps store order: it distributes over concatenation. */
  lemma {:induction false} MatchingAppend(a: Store, b: Store, term: string)
    ensures Matching(a + b, term) == Matching(a, term) + Matching(b, term)
    decreases |a|
  {
    if |a| > 0 {
      assert (a + b)[0] == a[0];
      assert (a + b)[1..] == a[1..] + b;
      MatchingAppend(a[1..], b, term);
    } else {
      assert a + b == b;
    }
  }

  /** The search ignores the case of its term. */
  lemma MatchingIgnoresCase(store: Store, term: string)
    ensures Matching(store, Lower(term)) == Matching(store, term)
  {
    LowerIdempotent(term);
  }

  datatype SearchOutcome =
    | NothingToSearch           // no company is registered
    | NoMatches(term: string)   // reported with the lowered term
    | Matches(companies: Store)

  /** `buscar_empresas`. */
  function SearchCompanies(store: Store, term: string): (o: SearchOutcome)
    ensures o.NothingToSearch? <==> |store| == 0
    ensures o.NoMatches? <==> |store| > 0 && forall c :: c in store ==> !MatchesTerm(c, term)
    ensures o.NoMatches? ==> o.term == Lower(term)
    ensures o.Matches? ==> |o.companies| > 0 && o.companies == Matching(store, term)
  {
    if |store| == 0 then NothingToSearch
    else
      var found := Matching(store, term);
      assert |found| > 0 ==> found[0] in found;
      if |found| == 0 then NoMatches(Lower(term)) else Matches(found)
  }

  /** The "did you mean" list: keys containing the query, ignoring case, in store order. */
  function Suggestions(store: Store, query: string): (r: seq<string>)
    ensures forall n :: n in r <==> n in Names(store) && Contains(Lower(n), Lower(query))
    ensures |r| <= |store|
  {
    if |store| == 0 then []
    else
      var rest := Suggestions(store[1..], query);
      assert Names(store) == [store[0].name] + Names(store[1..]);
      (if Contains(Lower(store[0].name), Lower(query)) then [store[0].name] else []) + rest
  }

  /** The suggestions keep store order: they distribute over concatenation. */
  lemma {:induction false} SuggestionsAppend(a: Store, b: Store, query: string)
    ensures Suggestions(a + b, query) == Suggestions(a, query) + Suggestions(b, query)
    decreases |a|
  {
    if |a| > 0 {
      assert (a + b)[0] == a[0];
      assert (a + b)[1..] == a[1..] + b;
      SuggestionsAppend(a[1..], b, query);
    } else {
      assert a + b == b;
    }
  }

  datatype AnalyzeOutcome =
    | MissingName                             // an empty name was given
    | NotFound(suggestions: seq<string>)
    | Report(company: Company, bullets: seq<string>)

  /** `analizar_empresa`: exact-key lookup, the full report with its bullets, or suggestions. */
  function AnalyzeCompany(store: Store, name: string): (o: AnalyzeOutcome)
    ensures o.MissingName? <==> name == ""
    ensures o.NotFound? <==> name != "" && name !in Names(store)
    ensures o.NotFound? ==> o.suggestions == Suggestions(store, name)
    ensures o.Report? ==> o.company in store && o.company.name == name
    ensures o.Report? ==> o.bullets == ReportRecommendations(o.company.analysis.indicators)
  {
    if name == "" then MissingName
    else match Get(store, name)
      case None => NotFound(Suggestions(store, name))
      case Some(c) => Report(c, ReportRecommendations(c.analysis.indicators))
  }

  /** `mostrar_recomendaciones`: the advice bullets of a stored company, if the key exists. */
  function RecommendationsFor(store: Store, name: string): (r: Option<seq<string>>)
    ensures r.None? <==> name !in Names(store)
    ensures r.Some? ==> exists c :: c in store && c.name == name
                                    && r.value == AdviceRecommendations(c.analysis.indicators)
  {
    match Get(store, name)
    case None => None
    case Some(c) => Some(AdviceRecommendations(c.analysis.indicators))
  }

  /**
    `mostrar_mejor_empresa`'s loop: starting from a best score of -1, a company replaces the
    current pick only with a strictly higher score.
   */
  function BestIndex(store: Store): (r: Option<nat>)
    ensures r.None? <==> forall j :: 0 <= j < |store| ==> ScoreOf(store[j]) < 0
    ensures r.Some? ==> r.value < |store| && ScoreOf(store[r.value]) >= 0
    ensures r.Some? ==> forall j :: 0 <= j < |store| ==> ScoreOf(store[j]) <= ScoreOf(store[r.value])
    ensures r.Some? ==> forall j :: 0 <= j < r.value ==> ScoreOf(store[j]) < ScoreOf(store[r.value])
    decreases |store|
  {
    if |store| == 0 then None
    else
      var last := |store| - 1;
      var prev := BestIndex(store[..last]);
      var bar := if prev.Some? then ScoreOf(store[prev.value]) else -1;
      if ScoreOf(store[last]) > bar then Some(last) else prev
  }

  /**
    `mostrar_peor_empresa`'s loop: starting from a worst score of infinity, a company replaces
    the current pick only with a strictly lower score.
   */
  function WorstIndex(store: Store): (r: Option<nat>)
    ensures r.None? <==> |store| == 0
    ensures r.Some? ==> r.value < |store|
    ensures r.Some? ==> forall j :: 0 <= j < |store| ==> ScoreOf(store[r.value]) <= ScoreOf(store[j])
    ensures r.Some? ==> forall j :: 0 <= j < r.value ==> ScoreOf(store[r.value]) < ScoreOf(store[j])
    decreases |store|
  {
    if |store| == 0 then None
    else
      var last := |store| - 1;
      var prev := WorstIndex(store[..last]);
      if prev.None? || ScoreOf(store[last]) < ScoreOf(store[prev.value]) then Some(last) else prev
  }

  datatype Pick =
    | NothingToPick       // no company is registered
    | Picked(company: Company)
    | Aborted             // no score beat the -1 start: `mostrar_mejor_empresa` fails on the missing pick

  function ShowBest(store: Store): (p: Pick)
    ensures p.NothingToPick? <==> |store| == 0
    ensures p.Aborted? <==> |store| > 0 && forall j :: 0 <= j < |store| ==> ScoreOf(store[j]) < 0
    ensures p.Picked? ==> exists i :: 0 <= i < |store| && p.company == store[i]
                            && (forall j :: 0 <= j < |store| ==> ScoreOf(store[j]) <= ScoreOf(store[i]))
                            && (forall j :: 0 <= j < i ==> ScoreOf(store[j]) < ScoreOf(store[i]))
  {
    if |store| == 0 then NothingToPick
    else match BestIndex(store)
      case Some(i) => Picked(store[i])
      case None => Aborted
  }

  function ShowWorst(store: Store): (p: Pick)
    ensures p.NothingToPick? <==> |store| == 0
    ensures !p.Aborted?
    ensures p.Picked? ==> exists i :: 0 <= i < |store| && p.company == store[i]
                            && (forall j :: 0 <= j < |store| ==> ScoreOf(store[i]) <= ScoreOf(store[j]))
                            && (forall j :: 0 <= j < i ==> ScoreOf(store[i]) < ScoreOf(store[j]))
  {
    if |store| == 0 then NothingToPick
    else match WorstIndex(store)
      case Some(i) => Picked(store[i])
      case None => NothingToPick
  }

  /** Scores the scorer produces are at least 20, so the best-company query never aborts. */
  lemma BestNeverAbortsOnWellFormed(store: Store)
    requires WellFormed(store)
    ensures !ShowBest(store).Aborted?
  {
    if |store| > 0 {
      assert ScoreOf(store[0]) >= 20;
    }
  }

  /** How many companies carry exactly this sector string. */
  function CountSector(store: Store, sector: string): (n: nat)
    ensures n <= |store|
    decreases |store|
  {
    if |store| == 0 then 0
    else CountSector(store[..|store| - 1], sector) + (if store[|store| - 1].sector == sector then 1 else 0)
  }

  /** Some company of the store carries this sector. */
  predicate InStore(store: Store, sector: string) {
    exists i :: 0 <= i < |store| && store[i].sector == sector
  }

  /** A sector missing from the store has no company. */
  lemma {:induction false} CountSectorAbsent(store: Store, sector: string)
    requires !InStore(store, sector)
    ensures CountSector(store, sector) == 0
    decreases |store|
  {
    if |store| > 0 {
      var init := store[..|store| - 1];
      assert !InStore(init, sector) by {
        forall i | 0 <= i < |init| ensures init[i].sector != sector {
          assert init[i] == store[i];
        }
      }
      CountSectorAbsent(init, sector);
    }
  }

  /**
    `mostrar_sectores`'s dictionary: the sectors in insertion order, and the count kept for
    each. Python dictionaries remember insertion order, so both halves are needed.
   */
  datatype Tally = Tally(order: seq<string>, counts: map<string, nat>)

  /** No sector is listed twice, and exactly the listed sectors carry a count. */
  predicate ValidTally(t: Tally) {
    && (forall i, j :: 0 <= i < j < |t.order| ==> t.order[i] != t.order[j])
    && (forall i :: 0 <= i < |t.order| ==> t.order[i] in t.counts)
    && (forall s :: s in t.counts ==> s in t.order)
  }

  /** One company of `sector`: a known sector is incremented in place, a new one goes last with one. */
  function Bump(t: Tally, sector: string): (r: Tally)
    ensures sector in r.counts
    ensures sector in t.counts ==> r.order == t.order && r.counts[sector] == t.counts[sector] + 1
    ensures sector !in t.counts ==> r.order == t.order + [sector] && r.counts[sector] == 1
    ensures forall s :: s != sector ==> (s in r.counts <==> s in t.counts)
    ensures forall s :: s != sector && s in t.counts ==> r.counts[s] == t.counts[s]
  {
    if sector in t.counts then Tally(t.order, t.counts[sector := t.counts[sector] + 1])
    else Tally(t.order + [sector], t.counts[sector := 1])
  }

  /** The position of the first company of `sector`, or the store's length when there is none. */
  function FirstAt(store: Store, sector: string): (n: nat)
    ensures n <= |store|
    ensures n < |store| ==> store[n].sector == sector
    ensures forall j :: 0 <= j < n ==> store[j].sector != sector
    decreases |store|
  {
    if |store| == 0 then 0
    else if store[0].sector == sector then 0
    else 1 + FirstAt(store[1..], sector)
  }

  /** Appending a company does not move the first company of a sector already present. */
  lemma FirstAtSnoc(store: Store, sector: string)
    requires |store| > 0 && InStore(store[..|store| - 1], sector)
    ensures FirstAt(store, sector) == FirstAt(store[..|store| - 1], sector) < |store| - 1
  {
    var init := store[..|store| - 1];
    var k :| 0 <= k < |init| && init[k].sector == sector;
    var a, b := FirstAt(store, sector), FirstAt(init, sector);
    assert store[k].sector == sector;
    assert b <= k;
    assert store[b] == init[b];
  }

  /** The loop of `mostrar_sectores`: one `Bump` per company, in store order. */
  function TallySectors(store: Store): Tally
    decreases |store|
  {
    if |store| == 0 then Tally([], map[])
    else Bump(TallySectors(store[..|store| - 1]), store[|store| - 1].sector)
  }

  lemma InStoreSnoc(store: Store, s: string)
    requires |store| > 0
    ensures InStore(store, s) <==> InStore(store[..|store| - 1], s) || s == store[|store| - 1].sector
  {
    var init := store[..|store| - 1];
    if InStore(store, s) {
      var k :| 0 <= k < |store| && store[k].sector == s;
      if k < |init| { assert init[k].sector == s; }
    }
    if InStore(init, s) {
      var k :| 0 <= k < |init| && init[k].sector == s;
      assert store[k].sector == s;
    }
  }

  /**
    The tally lists each sector of the store exactly once, lists no other, and holds for each
    the number of companies carrying it.
   */
  lemma {:induction false} TallySectorsCounts(store: Store)
    ensures ValidTally(TallySectors(store))
    ensures forall s :: s in TallySectors(store).counts <==> InStore(store, s)
    ensures forall s :: s in TallySectors(store).counts ==> TallySectors(store).counts[s] == CountSector(store, s) > 0
    decreases |store|
  {
    if |store| > 0 {
      var init := store[..|store| - 1];
      var x := store[|store| - 1].sector;
      TallySectorsCounts(init);
      forall s ensures InStore(store, s) <==> InStore(init, s) || s == x {
        InStoreSnoc(store, s);
      }
      if x !in TallySectors(init).counts {
        CountSectorAbsent(init, x);
      }
    }
  }

  /** The counts of the listed sectors, added up in listing order. */
  function SumCounts(order: seq<string>, counts: map<string, nat>): nat
    requires forall i :: 0 <= i < |order| ==> order[i] in counts
    decreases |order|
  {
    if |order| == 0 then 0 else SumCounts(order[..|order| - 1], counts) + counts[order[|order| - 1]]
  }

  lemma {:induction false} SumCountsUntouched(order: seq<string>, counts: map<string, nat>, s: string, v: nat)
    requires forall i :: 0 <= i < |order| ==> order[i] in counts
    requires s !in order
    ensures SumCounts(order, counts[s := v]) == SumCounts(order, counts)
    decreases |order|
  {
    if |order| > 0 {
      SumCountsUntouched(order[..|order| - 1], counts, s, v);
    }
  }

  lemma {:induction false} SumCountsIncrement(order: seq<string>, counts: map<string, nat>, s: string)
    requires forall i :: 0 <= i < |order| ==> order[i] in counts
    requires forall i, j :: 0 <= i < j < |order| ==> order[i] != order[j]
    requires s in order
    ensures SumCounts(order, counts[s := counts[s] + 1]) == SumCounts(order, counts) + 1
    decreases |order|
  {
    var init := order[..|order| - 1];
    if order[|order| - 1] == s {
      assert s !in init;
      SumCountsUntouched(init, counts, s, counts[s] + 1);
    } else {
      assert s in init;
      SumCountsIncrement(init, counts, s);
    }
  }

  /** `Bump` keeps a tally valid. */
  lemma BumpValid(t: Tally, sector: string)
    requires ValidTally(t)
    ensures ValidTally(Bump(t, sector))
  {
    var r := Bump(t, sector);
    if sector !in t.counts {
      assert sector !in t.order;
      forall s | s in r.counts ensures s in r.order {
        if s != sector {
          assert s in t.order;
          var k :| 0 <= k < |t.order| && t.order[k] == s;
          assert r.order[k] == s;
        } else {
          assert r.order[|t.order|] == s;
        }
      }
    }
  }

  /** One `Bump` adds exactly one to the total. */
  lemma SumCountsBump(t: Tally, sector: string)
    requires ValidTally(t)
    ensures ValidTally(Bump(t, sector))
    ensures SumCounts(Bump(t, sector).order, Bump(t, sector).counts) == SumCounts(t.order, t.counts) + 1
  {
    BumpValid(t, sector);
    if sector in t.counts {
      SumCountsIncrement(t.order, t.counts, sector);
    } else {
      SumCountsAppend(t.order, t.counts, sector);
    }
  }

  lemma SumCountsAppend(order: seq<string>, counts: map<string, nat>, s: string)
    requires forall i :: 0 <= i < |order| ==> order[i] in counts
    requires s !in order
    ensures forall i :: 0 <= i < |order + [s]| ==> (order + [s])[i] in counts[s := 1]
    ensures SumCounts(order + [s], counts[s := 1]) == SumCounts(order, counts) + 1
  {
    var o := order + [s];
    assert o[..|o| - 1] == order;
    SumCountsUntouched(order, counts, s, 1);
  }

  /** Every company is counted exactly once: the counts add up to the number of companies. */
  lemma {:induction false} TallyAddsUp(store: Store)
    ensures ValidTally(TallySectors(store))
    ensures SumCounts(TallySectors(store).order, TallySectors(store).counts) == |store|
    decreases |store|
  {
    if |store| > 0 {
      TallyAddsUp(store[..|store| - 1]);
      SumCountsBump(TallySectors(store[..|store| - 1]), store[|store| - 1].sector);
    }
  }

  datatype StoreView<T> = EmptyStore | View(value: T)

  /** `listar_empresas`: every company in store order, or the empty-store message. */
  function ListCompanies(store: Store): (v: StoreView<Store>)
    ensures v.EmptyStore? <==> |store| == 0
    ensures v.View? ==> v.value == store
  {
    if |store| == 0 then EmptyStore else View(store)
  }

  /** The tally lists the sectors in the order of their first company, as the dictionary does. */
  lemma {:induction false} TallyFirstOccurrenceOrder(store: Store)
    ensures forall i, j :: 0 <= i < j < |TallySectors(store).order| ==>
              FirstAt(store, TallySectors(store).order[i]) < FirstAt(store, TallySectors(store).order[j])
    decreases |store|
  {
    if |store| > 0 {
      var init := store[..|store| - 1];
      var x := store[|store| - 1].sector;
      var before := TallySectors(init);
      TallyFirstOccurrenceOrder(init);
      TallySectorsCounts(init);
      forall i | 0 <= i < |before.order|
        ensures FirstAt(store, before.order[i]) == FirstAt(init, before.order[i]) < |init|
      {
        assert before.order[i] in before.counts;
        FirstAtSnoc(store, before.order[i]);
      }
      if x !in before.counts {
        assert !InStore(init, x);
        assert FirstAt(store, x) == |init|;
        assert TallySectors(store).order == before.order + [x];
      }
    }
  }

  /**
    `mostrar_sectores`: the empty-store message, or the tally, which lists exactly the sectors
    present, each with its number of companies, in the order their first company appears.
   */
  function ShowSectors(store: Store): (v: StoreView<Tally>)
    ensures v.EmptyStore? <==> |store| == 0
    ensures v.View? ==> ValidTally(v.value)
    ensures v.View? ==> forall s :: s in v.value.counts <==> InStore(store, s)
    ensures v.View? ==> forall s :: s in v.value.counts ==> v.value.counts[s] == CountSector(store, s)
    ensures v.View? ==> forall i, j :: 0 <= i < j < |v.value.order| ==>
                          FirstAt(store, v.value.order[i]) < FirstAt(store, v.value.order[j])
  {
    if |store| == 0 then EmptyStore
    else
      TallySectorsCounts(store);
      TallyFirstOccurrenceOrder(store);
      View(TallySectors(store))
  }

  /**
    The answers to the registration prompts. Numeric answers arrive already parsed: `None`
    stands for an answer the `float`/`int` conversion of `registrar_empresa` rejects.
   */
  datatype RegistrationForm = RegistrationForm(
    name: string,
    overwriteAnswer: string,   // asked only when the name is already registered
    annualValue: Option<real>,
    profit: Option<real>,
    sector: string,
    employees: Option<int>,
    assets: Option<real>,
    receivables: Option<real>,
    debt: Option<real>,
    timestamp: string)

  datatype RegistrationOutcome = Cancelled | InvalidNumber | Registered(company: Company)

  predicate AllParsed(f: RegistrationForm) {
    f.annualValue.Some? && f.profit.Some? && f.employees.Some?
    && f.assets.Some? && f.receivables.Some? && f.debt.Some?
  }

  /**
    `registrar_empresa`: an existing name is overwritten only when the answer lowers to "s";
    any rejected number aborts; otherwise the company, with a fresh analysis and timestamp,
    is stored under its name.
   */
  function Register(store: Store, form: RegistrationForm): (r: (Store, RegistrationOutcome))
    ensures r.1.Cancelled? <==> form.name in Names(store) && Lower(form.overwriteAnswer) != "s"
    ensures r.1.InvalidNumber? <==> !r.1.Cancelled? && !AllParsed(form)
    ensures !r.1.Registered? ==> r.0 == store
    ensures r.1.Registered? ==> Get(r.0, form.name) == Some(r.1.company)
    ensures r.1.Registered? ==> r.0 == Put(store, r.1.company)
    ensures r.1.Registered? ==> Consistent(r.1.company)
    ensures r.1.Registered? ==> r.1.company.sector == form.sector && r.1.company.registeredAt == form.timestamp
    ensures r.1.Registered? ==> r.1.company.fin == Financials(form.annualValue.value, form.profit.value,
              form.employees.value, form.assets.value, form.receivables.value, form.debt.value)
    ensures r.1.Registered? ==> forall n :: n != form.name && UniqueNames(store) ==> Get(r.0, n) == Get(store, n)
  {
    if form.name in Names(store) && Lower(form.overwriteAnswer) != "s" then (store, Cancelled)
    else if !AllParsed(form) then (store, InvalidNumber)
    else
      var fin := Financials(form.annualValue.value, form.profit.value, form.employees.value,
                            form.assets.value, form.receivables.value, form.debt.value);
      var c := Company(form.name, form.sector, fin, form.timestamp, GenerateAnalysis(form.name, form.sector, fin));
      var s := Put(store, c);
      assert forall n :: n != form.name && UniqueNames(store) ==> Get(s, n) == Get(store, n) by {
        forall n | n != form.name && UniqueNames(store) ensures Get(s, n) == Get(store, n) {
          PutKeepsOtherKeys(store, c, n);
        }
      }
      (s, Registered(c))
  }

  /** Registration keeps every key unique and every stored analysis up to date. */
  lemma RegisterPreservesWellFormed(store: Store, form: RegistrationForm)
    requires WellFormed(store)
    ensures WellFormed(Register(store, form).0)
  {
    var (s, o) := Register(store, form);
    if o.Registered? {
      var c := Company(form.name, form.sector, o.company.fin, form.timestamp,
                       GenerateAnalysis(form.name, form.sector, o.company.fin));
      assert s == Put(store, c);
    }
  }
}

=== FILE: scoring.dfy ===
/**
  The financial half of `generar_analisis_nlp`: four indicators computed from a company's
  figures, a five-rung points ladder per indicator, the 0-100 score, its six categories,
  and the recommendation bullets both reports derive from the indicators.
 */
module Scoring {

  /** A real number or positive infinity, the value Python's `float('inf')` stands for. */
  datatype ExtReal = Fin(r: real) | PosInf

  /** `x >= t` with infinity above every real. */
  predicate AtLeast(x: ExtReal, t: real) {
    x.PosInf? || x.r >= t
  }

  /** `x <= t` with infinity above every real. */
  predicate AtMost(x: ExtReal, t: real) {
    x.Fin? && x.r <= t
  }

  /** `x <= y` with infinity above every real. */
  predicate ExtLe(x: ExtReal, y: ExtReal) {
    y.PosInf? || (x.Fin? && x.r <= y.r)
  }

  /** The figures a company is registered with; `receivables` is stored but never scored. */
  datatype Financials = Financials(
    annualValue: real,
    profit: real,
    employees: int,
    assets: real,
    receivables: real,
    debt: real)

  /** Liquidity, profit margin (percent), debt ratio (percent), and productivity per employee. */
  datatype Indicators = Indicators(
    liquidity: ExtReal,
    margin: real,
    debtRatio: ExtReal,
    productivity: real)

  /**
    The zero-denominator conventions: liquidity and debt ratio become infinite, margin and
    productivity become zero, exactly when their denominator is not positive.
   */
  function ComputeIndicators(f: Financials): (ind: Indicators)
    ensures ind.liquidity.PosInf? <==> f.debt <= 0.0
    ensures f.annualValue <= 0.0 ==> ind.margin == 0.0
    ensures ind.debtRatio.PosInf? <==> f.assets <= 0.0
    ensures f.employees <= 0 ==> ind.productivity == 0.0
  {
    Indicators(
      if f.debt > 0.0 then Fin(f.assets / f.debt) else PosInf,
      if f.annualValue > 0.0 then (f.profit / f.annualValue) * 100.0 else 0.0,
      if f.assets > 0.0 then Fin((f.debt / f.assets) * 100.0) else PosInf,
      if f.employees > 0 then f.annualValue / (f.employees as real) else 0.0)
  }

  /**
    With a positive denominator each indicator is the ratio it names: liquidity times debt is
    the assets, the margin is the profit as a percentage of the annual value, the debt ratio is
    the debt as a percentage of the assets, and productivity times headcount is the annual value.
   */
  lemma IndicatorsAreRatios(f: Financials)
    ensures var ind := ComputeIndicators(f);
      && (f.debt > 0.0 ==> ind.liquidity.r * f.debt == f.assets)
      && (f.annualValue > 0.0 ==> ind.margin * f.annualValue == 100.0 * f.profit)
      && (f.assets > 0.0 ==> ind.debtRatio.r * f.assets == 100.0 * f.debt)
      && (f.employees > 0 ==> ind.productivity * (f.employees as real) == f.annualValue)
  {
  }

  /** The rungs of each ladder, best first. */
  const LiquidityRungs: seq<real> := [2.0, 1.5, 1.0, 0.5]
  const MarginRungs: seq<real> := [20.0, 15.0, 10.0, 5.0]
  const DebtRatioRungs: seq<real> := [30.0, 40.0, 50.0, 60.0]
  const ProductivityRungs: seq<real> := [200000000.0, 150000000.0, 100000000.0, 50000000.0]

  /** How many of `rungs` the value reaches from above. */
  function RungsReached(x: ExtReal, rungs: seq<real>): (n: nat)
    ensures n <= |rungs|
  {
    if |rungs| == 0 then 0
    else (if AtLeast(x, rungs[0]) then 1 else 0) + RungsReached(x, rungs[1..])
  }

  /** How many of `rungs` the value stays at or under. */
  function RungsUnder(x: ExtReal, rungs: seq<real>): (n: nat)
    ensures n <= |rungs|
  {
    if |rungs| == 0 then 0
    else (if AtMost(x, rungs[0]) then 1 else 0) + RungsUnder(x, rungs[1..])
  }

  /** The points one ladder rung is worth. */
  predicate IsRungPoints(p: int) {
    5 <= p <= 25 && p % 5 == 0
  }

  function LiquidityPoints(x: ExtReal): (p: int)
    ensures IsRungPoints(p)
  {
    if AtLeast(x, 2.0) then 25
    else if AtLeast(x, 1.5) then 20
    else if AtLeast(x, 1.0) then 15
    else if AtLeast(x, 0.5) then 10
    else 5
  }

  function MarginPoints(m: real): (p: int)
    ensures IsRungPoints(p)
  {
    if m >= 20.0 then 25
    else if m >= 15.0 then 20
    else if m >= 10.0 then 15
    else if m >= 5.0 then 10
    else 5
  }

  function DebtRatioPoints(x: ExtReal): (p: int)
    ensures IsRungPoints(p)
  {
    if AtMost(x, 30.0) then 25
    else if AtMost(x, 40.0) then 20
    else if AtMost(x, 50.0) then 15
    else if AtMost(x, 60.0) then 10
    else 5
  }

  function ProductivityPoints(v: real): (p: int)
    ensures IsRungPoints(p)
  {
    if v >= 200000000.0 then 25
    else if v >= 150000000.0 then 20
    else if v >= 100000000.0 then 15
    else if v >= 50000000.0 then 10
    else 5
  }

  /** Counting reached rungs of a four-rung ladder, unfolded. */
  lemma RungsReachedFour(x: ExtReal, a: real, b: real, c: real, d: real)
    ensures RungsReached(x, [a, b, c, d]) ==
      (if AtLeast(x, a) then 1 else 0) + (if AtLeast(x, b) then 1 else 0)
      + (if AtLeast(x, c) then 1 else 0) + (if AtLeast(x, d) then 1 else 0)
  {
    assert [a, b, c, d][1..] == [b, c, d];
    assert [b, c, d][1..] == [c, d];
    assert [c, d][1..] == [d];
    assert [d][1..] == [];
    assert RungsReached(x, [d]) == (if AtLeast(x, d) then 1 else 0);
    assert RungsReached(x, [c, d]) == (if AtLeast(x, c) then 1 else 0) + RungsReached(x, [d]);
    assert RungsReached(x, [b, c, d]) == (if AtLeast(x, b) then 1 else 0) + RungsReached(x, [c, d]);
  }

  /** Counting rungs stayed under on a four-rung ladder, unfolded. */
  lemma RungsUnderFour(x: ExtReal, a: real, b: real, c: real, d: real)
    ensures RungsUnder(x, [a, b, c, d]) ==
      (if AtMost(x, a) then 1 else 0) + (if AtMost(x, b) then 1 else 0)
      + (if AtMost(x, c) then 1 else 0) + (if AtMost(x, d) then 1 else 0)
  {
    assert [a, b, c, d][1..] == [b, c, d];
    assert [b, c, d][1..] == [c, d];
    assert [c, d][1..] == [d];
    assert [d][1..] == [];
    assert RungsUnder(x, [d]) == (if AtMost(x, d) then 1 else 0);
    assert RungsUnder(x, [c, d]) == (if AtMost(x, c) then 1 else 0) + RungsUnder(x, [d]);
    assert RungsUnder(x, [b, c, d]) == (if AtMost(x, b) then 1 else 0) + RungsUnder(x, [c, d]);
  }

  /**
    Each ladder is worth 5 points plus 5 per rung reached: the first-match chain of
    `generar_analisis_nlp` agrees with counting rungs, because the rungs are ordered.
   */
  lemma LaddersCountRungs(ind: Indicators)
    ensures LiquidityPoints(ind.liquidity) == 5 + 5 * RungsReached(ind.liquidity, LiquidityRungs)
    ensures MarginPoints(ind.margin) == 5 + 5 * RungsReached(Fin(ind.margin), MarginRungs)
    ensures DebtRatioPoints(ind.debtRatio) == 5 + 5 * RungsUnder(ind.debtRatio, DebtRatioRungs)
    ensures ProductivityPoints(ind.productivity) == 5 + 5 * RungsReached(Fin(ind.productivity), ProductivityRungs)
  {
    RungsReachedFour(ind.liquidity, 2.0, 1.5, 1.0, 0.5);
    RungsReachedFour(Fin(ind.margin), 20.0, 15.0, 10.0, 5.0);
    RungsUnderFour(ind.debtRatio, 30.0, 40.0, 50.0, 60.0);
    RungsReachedFour(Fin(ind.productivity), 200000000.0, 150000000.0, 100000000.0, 50000000.0);
  }

  /** A larger liquidity, margin or productivity, or a smaller debt ratio, never loses points. */
  lemma LaddersMonotone(a: Indicators, b: Indicators)
    ensures ExtLe(a.liquidity, b.liquidity) ==> LiquidityPoints(a.liquidity) <= LiquidityPoints(b.liquidity)
    ensures a.margin <= b.margin ==> MarginPoints(a.margin) <= MarginPoints(b.margin)
    ensures ExtLe(b.debtRatio, a.debtRatio) ==> DebtRatioPoints(a.debtRatio) <= DebtRatioPoints(b.debtRatio)
    ensures a.productivity <= b.productivity ==> ProductivityPoints(a.productivity) <= ProductivityPoints(b.productivity)
  {
  }

  /** The sum of the four ladders. */
  function Score(ind: Indicators): (s: int)
    ensures 20 <= s <= 100
    ensures s % 5 == 0
  {
    var a, b, c, d := LiquidityPoints(ind.liquidity), MarginPoints(ind.margin),
                      DebtRatioPoints(ind.debtRatio), ProductivityPoints(ind.productivity);
    RungPointsAddUp(a, b, c, d);
    a + b + c + d
  }

  lemma RungPointsAddUp(a: int, b: int, c: int, d: int)
    requires IsRungPoints(a) && IsRungPoints(b) && IsRungPoints(c) && IsRungPoints(d)
    ensures 20 <= a + b + c + d <= 100 && (a + b + c + d) % 5 == 0
  {
  }

  /** The six categories, best first. */
  datatype Category = Excelente | MuyBuena | Buena | Regular | Deficiente | Critica

  /** Position of a category, 0 for the worst. */
  function Rank(c: Category): nat {
    match c
    case Critica => 0
    case Deficiente => 1
    case Regular => 2
    case Buena => 3
    case MuyBuena => 4
    case Excelente => 5
  }

  /** The lowest score each category accepts; the worst category accepts every score. */
  predicate Admits(c: Category, score: int) {
    match c
    case Excelente => score >= 85
    case MuyBuena => score >= 70
    case Buena => score >= 55
    case Regular => score >= 40
    case Deficiente => score >= 25
    case Critica => true
  }

  /** The best category whose threshold the score reaches; a boundary score gets the higher one. */
  function CategoryOf(score: int): (c: Category)
    ensures Admits(c, score)
    ensures forall d: Category :: Rank(d) > Rank(c) ==> !Admits(d, score)
  {
    if score >= 85 then Excelente
    else if score >= 70 then MuyBuena
    else if score >= 55 then Buena
    else if score >= 40 then Regular
    else if score >= 25 then Deficiente
    else Critica
  }

  /** A higher score never gets a worse category. */
  lemma CategoryMonotone(s: int, t: int)
    requires s <= t
    ensures Rank(CategoryOf(s)) <= Rank(CategoryOf(t))
  {
  }

  function Label(c: Category): string {
    match c
    case Excelente => "Excelente"
    case MuyBuena => "Muy Buena"
    case Buena => "Buena"
    case Regular => "Regular"
    case Deficiente => "Deficiente"
    case Critica => "Crítica"
  }

  /** The sentence stored and printed with each category. */
  function Description(c: Category): string {
    match c
    case Excelente => "La empresa muestra una salud financiera excepcional."
    case MuyBuena => "La empresa tiene una posición financiera sólida."
    case Buena => "La empresa presenta indicadores financieros estables."
    case Regular => "La empresa tiene áreas que necesitan mejoras."
    case Deficiente => "La empresa presenta problemas financieros significativos."
    case Critica => "La empresa requiere atención urgente en su gestión financiera."
  }

  /** Distinct categories carry distinct labels, so the stored label identifies the category. */
  lemma LabelsDistinct(c: Category, d: Category)
    requires c != d
    ensures Label(c) != Label(d)
  {
  }

  const MaxScore: int := 100

  /** The `evaluacion` part of an analysis. */
  datatype Evaluation = Evaluation(score: int, maxScore: int, category: Category, description: string)

  /**
    The evaluation stored with an analysis: 20 points plus 5 for every rung the four
    indicators reach, out of 100, and the best category that score admits.
   */
  function Evaluate(ind: Indicators): (e: Evaluation)
    ensures 20 <= e.score <= MaxScore == e.maxScore
    ensures e.score % 5 == 0
    ensures e.score == 20 + 5 * (RungsReached(ind.liquidity, LiquidityRungs)
                                 + RungsReached(Fin(ind.margin), MarginRungs)
                                 + RungsUnder(ind.debtRatio, DebtRatioRungs)
                                 + RungsReached(Fin(ind.productivity), ProductivityRungs))
    ensures Admits(e.category, e.score)
    ensures forall d: Category :: Rank(d) > Rank(e.category) ==> !Admits(d, e.score)
    ensures e.description == Description(e.category)
  {
    LaddersCountRungs(ind);
    var s := Score(ind);
    Evaluation(s, MaxScore, CategoryOf(s), Description(CategoryOf(s)))
  }

  /** Only the worst showing on all four ladders makes a company critical. */
  lemma CriticalIffAllWorst(ind: Indicators)
    ensures Evaluate(ind).category == Critica <==>
      && LiquidityPoints(ind.liquidity) == 5 && MarginPoints(ind.margin) == 5
      && DebtRatioPoints(ind.debtRatio) == 5 && ProductivityPoints(ind.productivity) == 5
  {
  }

  /** Zero or negative denominators: no division, and the points the conventions imply. */
  lemma ZeroDenominators(f: Financials)
    ensures f.debt <= 0.0 ==> LiquidityPoints(ComputeIndicators(f).liquidity) == 25
    ensures f.assets <= 0.0 ==> DebtRatioPoints(ComputeIndicators(f).debtRatio) == 5
    ensures f.annualValue <= 0.0 ==> MarginPoints(ComputeIndicators(f).margin) == 5
    ensures f.employees <= 0 ==> ProductivityPoints(ComputeIndicators(f).productivity) == 5
  {
  }

  /** Assets 200M, debt 100M, profit 50M, annual value 500M, 10 employees: 25+15+15+10 = 65, "Buena". */
  lemma ExampleGood()
    ensures ComputeIndicators(Financials(500000000.0, 50000000.0, 10, 200000000.0, 0.0, 100000000.0))
            == Indicators(Fin(2.0), 10.0, Fin(50.0), 50000000.0)
    ensures Evaluate(Indicators(Fin(2.0), 10.0, Fin(50.0), 50000000.0)) == Evaluation(65, 100, Buena, Description(Buena))
    ensures Label(Buena) == "Buena"
  {
    var ind := ComputeIndicators(Financials(500000000.0, 50000000.0, 10, 200000000.0, 0.0, 100000000.0));
    assert ind.liquidity == Fin(2.0);
    assert ind.margin == 10.0;
    assert ind.debtRatio == Fin(50.0);
    assert ind.productivity == 50000000.0;
    assert Score(Indicators(Fin(2.0), 10.0, Fin(50.0), 50000000.0)) == 65;
  }

  /** No debt, assets 100, no profit, annual value 100, one employee: 25+5+25+5 = 60, "Buena". */
  lemma ExampleDebtFree()
    ensures ComputeIndicators(Financials(100.0, 0.0, 1, 100.0, 0.0, 0.0)) == Indicators(PosInf, 0.0, Fin(0.0), 100.0)
    ensures Evaluate(Indicators(PosInf, 0.0, Fin(0.0), 100.0)) == Evaluation(60, 100, Buena, Description(Buena))
  {
    var ind := ComputeIndicators(Financials(100.0, 0.0, 1, 100.0, 0.0, 0.0));
    assert ind.margin == 0.0;
    assert ind.debtRatio == Fin(0.0);
    assert ind.productivity == 100.0;
    assert Score(Indicators(PosInf, 0.0, Fin(0.0), 100.0)) == 60;
  }

  /** The four conditions a recommendation bullet is emitted for, in the order `mostrar_analisis_texto` checks them. */
  datatype Concern = LowLiquidity | LowMargin | HighDebt | LowProductivity

  function ConcernOrder(k: Concern): nat {
    match k
    case LowLiquidity => 0
    case LowMargin => 1
    case HighDebt => 2
    case LowProductivity => 3
  }

  /** The threshold tests: liquidity < 1, margin < 10, debt ratio > 50, productivity < 1e8. */
  predicate Breached(ind: Indicators, k: Concern) {
    match k
    case LowLiquidity => !AtLeast(ind.liquidity, 1.0)
    case LowMargin => ind.margin < 10.0
    case HighDebt => !AtMost(ind.debtRatio, 50.0)
    case LowProductivity => ind.productivity < 100000000.0
  }

  /** A bullet: one concern, or the single "healthy" bullet. */
  datatype Advice = Address(concern: Concern) | Healthy

  function AdviceOrder(a: Advice): nat {
    match a
    case Address(k) => ConcernOrder(k)
    case Healthy => 4
  }

  /** The bullet for one concern when its test fires, nothing otherwise. */
  function Flag(ind: Indicators, k: Concern): seq<Advice> {
    if Breached(ind, k) then [Address(k)] else []
  }

  /** The bullets a report lists: one per breached test in test order, or "healthy" alone. */
  function AdviceFor(ind: Indicators): (r: seq<Advice>)
    ensures |r| >= 1
    ensures r == [Healthy] <==> forall k: Concern :: !Breached(ind, k)
    ensures Healthy in r <==> forall k: Concern :: !Breached(ind, k)
    ensures forall k: Concern :: Address(k) in r <==> Breached(ind, k)
    ensures forall i, j :: 0 <= i < j < |r| ==> AdviceOrder(r[i]) < AdviceOrder(r[j])
  {
    var b := Flags(ind);
    FlagsMentionBreaches(ind);
    FlagsOrdered(ind);
    if b == [] then [Healthy] else b
  }

  /** The bullets for the failed tests, before the "healthy" fallback. */
  function Flags(ind: Indicators): seq<Advice> {
    Flag(ind, LowLiquidity) + Flag(ind, LowMargin) + Flag(ind, HighDebt) + Flag(ind, LowProductivity)
  }

  lemma FlagsMentionBreaches(ind: Indicators)
    ensures Healthy !in Flags(ind)
    ensures forall k: Concern :: Address(k) in Flags(ind) <==> Breached(ind, k)
  {
  }

  lemma FlagsOrdered(ind: Indicators)
    ensures forall i, j :: 0 <= i < j < |Flags(ind)| ==> AdviceOrder(Flags(ind)[i]) < AdviceOrder(Flags(ind)[j])
  {
  }

  /** The bullets of the full report (`mostrar_analisis_texto`). */
  function ReportLine(a: Advice): string {
    match a
    case Address(LowLiquidity) => "• Mejorar la posición de liquidez para cubrir obligaciones a corto plazo."
    case Address(LowMargin) => "• Implementar estrategias para aumentar el margen de ganancia."
    case Address(HighDebt) => "• Reducir el nivel de endeudamiento para mejorar la estabilidad financiera."
    case Address(LowProductivity) => "• Revisar la productividad por empleado para optimizar recursos."
    case Healthy => HealthyLine
  }

  /** The bullets of the recommendations answer (`mostrar_recomendaciones`). */
  function AdviceLine(a: Advice): string {
    match a
    case Address(LowLiquidity) => "• Se recomienda mejorar la posición de liquidez para cubrir obligaciones a corto plazo."
    case Address(LowMargin) => "• Se recomienda implementar estrategias para aumentar el margen de ganancia."
    case Address(HighDebt) => "• Se recomienda reducir el nivel de endeudamiento para mejorar la estabilidad financiera."
    case Address(LowProductivity) => "• Se recomienda revisar la productividad por empleado para optimizar recursos."
    case Healthy => HealthyLine
  }

  const HealthyLine: string := "• La empresa muestra indicadores saludables. Se recomienda mantener las estrategias actuales."

  /** Words each advice with `line`, keeping the order. */
  function Phrase(line: Advice -> string, advice: seq<Advice>): (r: seq<string>)
    ensures |r| == |advice|
  {
    if |advice| == 0 then [] else [line(advice[0])] + Phrase(line, advice[1..])
  }

  lemma PhraseAppend(line: Advice -> string, a: seq<Advice>, b: seq<Advice>)
    ensures Phrase(line, a + b) == Phrase(line, a) + Phrase(line, b)
    decreases |a|
  {
    if |a| > 0 {
      assert (a + b)[0] == a[0];
      assert (a + b)[1..] == a[1..] + b;
      PhraseAppend(line, a[1..], b);
      assert Phrase(line, a + b) == [line(a[0])] + Phrase(line, a[1..] + b);
    } else {
      assert a + b == b;
    }
  }

  /**
    A recommendation list built test by test, as both the report and the recommendations
    answer build theirs: one bullet per failed test in test order, or the "healthy" bullet
    alone. `line` words each bullet.
   */
  function Recommendations(line: Advice -> string, ind: Indicators): seq<string> {
    var r :=
      (if !AtLeast(ind.liquidity, 1.0) then [line(Address(LowLiquidity))] else [])
      + (if ind.margin < 10.0 then [line(Address(LowMargin))] else [])
      + (if !AtMost(ind.debtRatio, 50.0) then [line(Address(HighDebt))] else [])
      + (if ind.productivity < 100000000.0 then [line(Address(LowProductivity))] else []);
    if r == [] then [line(Healthy)] else r
  }

  /** The report's recommendation list (`mostrar_analisis_texto`). */
  function ReportRecommendations(ind: Indicators): seq<string> {
    Recommendations(ReportLine, ind)
  }

  /** The recommendations answer's list (`mostrar_recomendaciones`). */
  function AdviceRecommendations(ind: Indicators): seq<string> {
    Recommendations(AdviceLine, ind)
  }

  /** Wording the bullet of one concern gives the bullet the chain appends for that test. */
  lemma PhraseFlag(line: Advice -> string, ind: Indicators, k: Concern)
    ensures Phrase(line, Flag(ind, k)) == if Breached(ind, k) then [line(Address(k))] else []
  {
    if Breached(ind, k) {
      assert Phrase(line, [Address(k)]) == [line(Address(k))] + Phrase(line, []);
    }
  }

  /** Wording the advice of `AdviceFor` with `line`, test by test. */
  lemma PhraseAdvice(line: Advice -> string, ind: Indicators)
    ensures Phrase(line, AdviceFor(ind)) == Recommendations(line, ind)
  {
    var l, m, d, p := Flag(ind, LowLiquidity), Flag(ind, LowMargin), Flag(ind, HighDebt), Flag(ind, LowProductivity);
    assert Flags(ind) == l + m + d + p;
    PhraseFlag(line, ind, LowLiquidity);
    PhraseFlag(line, ind, LowMargin);
    PhraseFlag(line, ind, HighDebt);
    PhraseFlag(line, ind, LowProductivity);
    PhraseAppend(line, l, m);
    PhraseAppend(line, l + m, d);
    PhraseAppend(line, l + m + d, p);
    assert Phrase(line, [Healthy]) == [line(Healthy)] + Phrase(line, []);
  }

  /** The report's bullets are the advice of `AdviceFor`, worded for the report. */
  lemma ReportFollowsAdvice(ind: Indicators)
    ensures ReportRecommendations(ind) == Phrase(ReportLine, AdviceFor(ind))
  {
    PhraseAdvice(ReportLine, ind);
  }

  /**
    The recommendations answer's bullets are the same advice of `AdviceFor`, worded for that
    answer: both copies of the rules fire on identical conditions, in the same order.
   */
  lemma AnswerFollowsAdvice(ind: Indicators)
    ensures AdviceRecommendations(ind) == Phrase(AdviceLine, AdviceFor(ind))
  {
    PhraseAdvice(AdviceLine, ind);
  }

  /** An infinite debt ratio (no assets) always draws the debt bullet. */
  lemma InfiniteDebtRatioDrawsDebtAdvice(ind: Indicators)
    requires ind.debtRatio.PosInf?
    ensures Address(HighDebt) in AdviceFor(ind)
  {
  }
}

=== FILE: text.dfy ===
/**
  String helpers the chat tool relies on: lowercasing, whitespace stripping, substring
  tests, whitespace splitting, and the two fallback annotators `tokenize_simple` and
  `pos_tag_simple` used when the linguistic library is unavailable.
 */
module Text {

  /** The characters Python's `str.isspace` accepts; `strip()` and `split()` use this set. */
  predicate IsSpace(c: char) {
    || c == ' '
    || ('\t' <= c <= '\r')
    || ('\U{1C}' <= c <= '\U{1F}')
    || c == '\U{85}' || c == '\U{A0}' || c == '\U{1680}'
    || ('\U{2000}' <= c <= '\U{200A}')
    || c == '\U{2028}' || c == '\U{2029}' || c == '\U{202F}' || c == '\U{205F}' || c == '\U{3000}'
  }

  /** Membership in Python's `string.punctuation`: the 32 ASCII punctuation characters. */
  predicate IsPunctuation(c: char) {
    ('!' <= c <= '/') || (':' <= c <= '@') || ('[' <= c <= '`') || ('{' <= c <= '~')
  }

  /** Upper-case letters of ASCII and Latin-1 (the multiplication sign is not a letter). */
  predicate IsUpper(c: char) {
    ('A' <= c <= 'Z') || ('\U{C0}' <= c <= '\U{DE}' && c != '\U{D7}')
  }

  function LowerChar(c: char): (r: char)
    ensures !IsUpper(r)
    ensures IsUpper(c) ==> r as int == c as int + 32
    ensures !IsUpper(c) ==> r == c
  {
    if IsUpper(c) then (c as int + 32) as char else c
  }

  /** No character of `s` is upper case. */
  predicate IsLower(s: string) {
    forall i :: 0 <= i < |s| ==> !IsUpper(s[i])
  }

  /** `str.lower()`, restricted to ASCII and Latin-1 letters. */
  function Lower(s: string): (r: string)
    ensures |r| == |s|
    ensures IsLower(r)
    ensures forall i :: 0 <= i < |s| ==> r[i] == LowerChar(s[i])
  {
    seq(|s|, i requires 0 <= i < |s| => LowerChar(s[i]))
  }

  /** Lowering is idempotent, and it leaves an already lower-case string alone. */
  lemma LowerIdempotent(s: string)
    ensures Lower(Lower(s)) == Lower(s)
    ensures IsLower(s) ==> Lower(s) == s
  {
  }

  predicate AllSpace(s: string) {
    forall i :: 0 <= i < |s| ==> IsSpace(s[i])
  }

  /** Neither end of `s` is whitespace. */
  predicate IsStripped(s: string) {
    |s| > 0 ==> !IsSpace(s[0]) && !IsSpace(s[|s| - 1])
  }

  /** The number of whitespace characters `s` starts with. */
  function LeadingSpaces(s: string): (n: nat)
    ensures n <= |s|
    ensures forall i :: 0 <= i < n ==> IsSpace(s[i])
    ensures n < |s| ==> !IsSpace(s[n])
    decreases |s|
  {
    if |s| > 0 && IsSpace(s[0]) then 1 + LeadingSpaces(s[1..]) else 0
  }

  /** The number of whitespace characters `s` ends with. */
  function TrailingSpaces(s: string): (n: nat)
    ensures n <= |s|
    ensures forall i :: |s| - n <= i < |s| ==> IsSpace(s[i])
    ensures n < |s| ==> !IsSpace(s[|s| - n - 1])
    decreases |s|
  {
    if |s| > 0 && IsSpace(s[|s| - 1]) then 1 + TrailingSpaces(s[..|s| - 1]) else 0
  }

  /** `s.lstrip()`: drops the leading whitespace. */
  function StripStart(s: string): string {
    s[LeadingSpaces(s)..]
  }

  /** `s.rstrip()`: drops the trailing whitespace. */
  function StripEnd(s: string): string {
    s[..|s| - TrailingSpaces(s)]
  }

  /** `s.strip()`: drops the whitespace at both ends. */
  function Strip(s: string): (r: string)
    ensures IsStripped(r)
  {
    StripEnd(StripStart(s))
  }

  /** `strip()` keeps all of `s` apart from some whitespace before and some after. */
  lemma StripShape(s: string)
    ensures exists pre, post :: AllSpace(pre) && AllSpace(post) && s == pre + Strip(s) + post
  {
    var a := LeadingSpaces(s);
    var t := s[a..];
    var j := a + |t| - TrailingSpaces(t);
    assert Strip(s) == s[a..j];
    forall k | j <= k < |s| ensures IsSpace(s[k]) {
      assert s[k] == t[k - a];
    }
    SpaceAround(s, a, j);
  }

  /** A stretch with only whitespace before and after it is `s` less that whitespace. */
  lemma SpaceAround(s: string, i: nat, j: nat)
    requires i <= j <= |s|
    requires forall k :: 0 <= k < i ==> IsSpace(s[k])
    requires forall k :: j <= k < |s| ==> IsSpace(s[k])
    ensures exists pre, post :: AllSpace(pre) && AllSpace(post) && s == pre + s[i..j] + post
  {
    var pre, post := s[..i], s[j..];
    assert s == pre + s[i..j] + post;
    assert AllSpace(pre) && AllSpace(post);
  }

  /** Stripping a string twice changes nothing more. */
  lemma StripIdempotent(s: string)
    requires IsStripped(s)
    ensures Strip(s) == s
  {
    assert LeadingSpaces(s) == 0;
    assert TrailingSpaces(s) == 0;
  }

  /** Lowering works character by character, so it distributes over concatenation. */
  lemma LowerAppend(a: string, b: string)
    ensures Lower(a + b) == Lower(a) + Lower(b)
  {
  }

  /** Lowering keeps whitespace and non-whitespace apart, so the leading counts agree. */
  lemma LeadingSpacesLower(s: string)
    ensures LeadingSpaces(Lower(s)) == LeadingSpaces(s)
  {
    var l := Lower(s);
    assert forall k :: 0 <= k < |s| ==> (IsSpace(l[k]) <==> IsSpace(s[k]));
  }

  /** Likewise for the trailing counts. */
  lemma TrailingSpacesLower(s: string)
    ensures TrailingSpaces(Lower(s)) == TrailingSpaces(s)
  {
    var l := Lower(s);
    assert forall k :: 0 <= k < |s| ==> (IsSpace(l[k]) <==> IsSpace(s[k]));
  }

  /** Lowering a slice is slicing the lowered string. */
  lemma LowerSlice(s: string, i: nat, j: nat)
    requires i <= j <= |s|
    ensures Lower(s)[i..j] == Lower(s[i..j])
  {
  }

  lemma StripStartLower(s: string)
    ensures StripStart(Lower(s)) == Lower(StripStart(s))
  {
    LeadingSpacesLower(s);
    LowerSlice(s, LeadingSpaces(s), |s|);
  }

  lemma StripEndLower(s: string)
    ensures StripEnd(Lower(s)) == Lower(StripEnd(s))
  {
    TrailingSpacesLower(s);
    LowerSlice(s, 0, |s| - TrailingSpaces(s));
  }

  /** Stripping and lowering commute: lowering never turns whitespace into text or back. */
  lemma StripLower(s: string)
    ensures Strip(Lower(s)) == Lower(Strip(s))
  {
    StripStartLower(s);
    StripEndLower(StripStart(s));
  }

  /** Only an all-whitespace string strips to nothing. */
  lemma StripEmpty(s: string)
    ensures Strip(s) == "" <==> AllSpace(s)
  {
  }

  /** `needle` occurs in `hay` starting at position `i`. */
  predicate OccursAt(hay: string, needle: string, i: nat) {
    i + |needle| <= |hay| && hay[i..i + |needle|] == needle
  }

  /** Python's `needle in hay` for strings; the empty string occurs in every string. */
  predicate Contains(hay: string, needle: string)
    decreases |hay|
  {
    needle <= hay || (|hay| > 0 && Contains(hay[1..], needle))
  }

  /** `Contains` holds exactly when the needle occurs at some position. */
  lemma {:induction false} ContainsIffOccurs(hay: string, needle: string)
    ensures Contains(hay, needle) <==> exists i: nat :: OccursAt(hay, needle, i)
    decreases |hay|
  {
    if needle <= hay {
      assert OccursAt(hay, needle, 0);
    } else if |hay| > 0 {
      ContainsIffOccurs(hay[1..], needle);
      if Contains(hay[1..], needle) {
        var i: nat :| OccursAt(hay[1..], needle, i);
        assert hay[i + 1..i + 1 + |needle|] == hay[1..][i..i + |needle|];
        assert OccursAt(hay, needle, i + 1);
      }
      if exists i: nat :: OccursAt(hay, needle, i) {
        var i: nat :| OccursAt(hay, needle, i);
        if i > 0 {
          assert hay[1..][i - 1..i - 1 + |needle|] == hay[i..i + |needle|];
          assert OccursAt(hay[1..], needle, i - 1);
        }
      }
    }
  }

  /** A token as `str.split()` produces it: non-empty and free of whitespace. */
  predicate IsWord(t: string) {
    |t| > 0 && forall k :: 0 <= k < |t| ==> !IsSpace(t[k])
  }

  /** Length of the longest whitespace-free prefix of `s`. */
  function WordLength(s: string): (n: nat)
    ensures n <= |s|
    ensures forall k :: 0 <= k < n ==> !IsSpace(s[k])
    ensures n < |s| ==> IsSpace(s[n])
    decreases |s|
  {
    if |s| == 0 || IsSpace(s[0]) then 0 else 1 + WordLength(s[1..])
  }

  /** `s.split()` with no separator: the maximal whitespace-free runs of `s`, in order. */
  function SplitWords(s: string): (r: seq<string>)
    ensures forall i :: 0 <= i < |r| ==> IsWord(r[i])
    decreases |s|
  {
    if |s| == 0 then []
    else if IsSpace(s[0]) then SplitWords(s[1..])
    else
      var n := WordLength(s);
      [s[..n]] + SplitWords(s[n..])
  }

  /** Splitting only cuts `s` up: every character of every word comes from `s`. */
  lemma {:induction false} SplitWordsChars(s: string)
    ensures forall i, k :: 0 <= i < |SplitWords(s)| && 0 <= k < |SplitWords(s)[i]| ==> SplitWords(s)[i][k] in s
    decreases |s|
  {
    if |s| > 0 {
      var m := if IsSpace(s[0]) then 1 else WordLength(s);
      var rest := SplitWords(s[m..]);
      SplitWordsChars(s[m..]);
      assert forall c :: c in s[m..] ==> c in s;
      assert forall k :: 0 <= k < m ==> s[..m][k] in s;
    }
  }

  /** A word followed by whitespace ends where it did alone. */
  lemma {:induction false} WordLengthAppend(a: string, t: string)
    requires |t| > 0 && IsSpace(t[0])
    ensures WordLength(a + t) == WordLength(a)
    decreases |a|
  {
    if |a| == 0 {
      assert a + t == t;
    } else {
      assert (a + t)[0] == a[0];
      assert (a + t)[1..] == a[1..] + t;
      WordLengthAppend(a[1..], t);
    }
  }

  /** Splitting around a space: the words of the two sides, in order. */
  lemma {:induction false} SplitWordsAppend(a: string, b: string)
    ensures SplitWords(a + " " + b) == SplitWords(a) + SplitWords(b)
    decreases |a|
  {
    var s := a + " " + b;
    if |a| == 0 {
      assert s == " " + b;
      assert s[1..] == b;
    } else if IsSpace(a[0]) {
      assert s[0] == a[0];
      assert s[1..] == a[1..] + " " + b;
      SplitWordsAppend(a[1..], b);
    } else {
      var n := WordLength(a);
      WordLengthAppend(a, " " + b);
      assert s == a + (" " + b);
      assert s[0] == a[0];
      assert s[..n] == a[..n];
      assert s[n..] == a[n..] + " " + b;
      SplitWordsAppend(a[n..], b);
    }
  }

  /** `" ".join(ts)`. */
  function JoinWords(ts: seq<string>): string
    decreases |ts|
  {
    if |ts| == 0 then ""
    else if |ts| == 1 then ts[0]
    else ts[0] + " " + JoinWords(ts[1..])
  }

  lemma {:induction false} WordLengthOfWord(t: string, rest: string)
    requires IsWord(t)
    requires |rest| > 0 ==> IsSpace(rest[0])
    ensures WordLength(t + rest) == |t|
    decreases |t|
  {
    if |t| > 1 {
      assert (t + rest)[1..] == t[1..] + rest;
      WordLengthOfWord(t[1..], rest);
    } else {
      assert (t + rest)[1..] == rest;
    }
  }

  /** Splitting a space-joined list of words gives the words back. */
  lemma {:induction false} SplitJoinRoundTrip(ts: seq<string>)
    requires forall i :: 0 <= i < |ts| ==> IsWord(ts[i])
    ensures SplitWords(JoinWords(ts)) == ts
    decreases |ts|
  {
    if |ts| == 1 {
      var t := ts[0];
      WordLengthOfWord(t, "");
      assert t + "" == t;
      assert t[|t|..] == "";
    } else if |ts| > 1 {
      var t := ts[0];
      var rest := JoinWords(ts[1..]);
      var s := t + " " + rest;
      WordLengthOfWord(t, " " + rest);
      assert s == t + (" " + rest);
      assert s[..|t|] == t;
      assert s[|t|..] == " " + rest;
      assert (" " + rest)[1..] == rest;
      SplitJoinRoundTrip(ts[1..]);
      assert SplitWords(s) == [t] + SplitWords(" " + rest);
      assert ts == [ts[0]] + ts[1..];
    }
  }

  /** Removes every `string.punctuation` character, keeping the rest in order. */
  function RemovePunctuation(s: string): (r: string)
    ensures forall c :: c in r <==> c in s && !IsPunctuation(c)
    ensures |r| <= |s|
    decreases |s|
  {
    if |s| == 0 then ""
    else if IsPunctuation(s[0]) then RemovePunctuation(s[1..])
    else [s[0]] + RemovePunctuation(s[1..])
  }

  /** Removing punctuation keeps order: it distributes over concatenation. */
  lemma {:induction false} RemovePunctuationAppend(a: string, b: string)
    ensures RemovePunctuation(a + b) == RemovePunctuation(a) + RemovePunctuation(b)
    decreases |a|
  {
    if |a| > 0 {
      assert (a + b)[0] == a[0];
      assert (a + b)[1..] == a[1..] + b;
      RemovePunctuationAppend(a[1..], b);
    } else {
      assert a + b == b;
    }
  }

  /** The character occurs in one of the words. */
  predicate InSomeWord(c: char, ws: seq<string>) {
    exists i :: 0 <= i < |ws| && c in ws[i]
  }

  /** Splitting loses no character but whitespace: each other character lands in some word. */
  lemma {:induction false} SplitWordsCovers(s: string)
    ensures forall j :: 0 <= j < |s| && !IsSpace(s[j]) ==> InSomeWord(s[j], SplitWords(s))
    decreases |s|
  {
    if |s| > 0 {
      var m := if IsSpace(s[0]) then 1 else WordLength(s);
      var rest := s[m..];
      SplitWordsCovers(rest);
      forall j | 0 <= j < |s| && !IsSpace(s[j])
        ensures InSomeWord(s[j], SplitWords(s))
      {
        if j < m {
          assert !IsSpace(s[0]) && s[..m][j] == s[j];
          assert SplitWords(s)[0] == s[..m];
        } else {
          assert rest[j - m] == s[j];
          var i :| 0 <= i < |SplitWords(rest)| && s[j] in SplitWords(rest)[i];
          if IsSpace(s[0]) {
            assert SplitWords(s) == SplitWords(rest);
          } else {
            assert SplitWords(s)[i + 1] == SplitWords(rest)[i];
          }
        }
      }
    }
  }

  /** `tokenize_simple`: lowercase, drop punctuation, split on whitespace. */
  function TokenizeSimple(text: string): (r: seq<string>)
    ensures forall i :: 0 <= i < |r| ==> IsWord(r[i]) && IsLower(r[i])
    ensures forall i, k :: 0 <= i < |r| && 0 <= k < |r[i]| ==> !IsPunctuation(r[i][k])
  {
    var cleaned := RemovePunctuation(Lower(text));
    assert forall c :: c in cleaned ==> !IsUpper(c) && !IsPunctuation(c) by {
      forall c | c in cleaned ensures !IsUpper(c) && !IsPunctuation(c) {
        var i :| 0 <= i < |Lower(text)| && Lower(text)[i] == c;
      }
    }
    SplitWordsChars(cleaned);
    SplitWords(cleaned)
  }

  /**
    The tokens are exactly the text's material: every token character comes from the lowered
    text, and every lowered character that is neither whitespace nor punctuation lands in
    some token.
   */
  lemma TokenizeSimpleCovers(text: string)
    ensures forall i, k :: 0 <= i < |TokenizeSimple(text)| && 0 <= k < |TokenizeSimple(text)[i]| ==>
              TokenizeSimple(text)[i][k] in Lower(text)
    ensures forall j :: 0 <= j < |text| && !IsSpace(Lower(text)[j]) && !IsPunctuation(Lower(text)[j]) ==>
              InSomeWord(Lower(text)[j], TokenizeSimple(text))
  {
    var cleaned := RemovePunctuation(Lower(text));
    assert TokenizeSimple(text) == SplitWords(cleaned);
    SplitWordsChars(cleaned);
    SplitWordsCovers(cleaned);
    forall j | 0 <= j < |text| && !IsSpace(Lower(text)[j]) && !IsPunctuation(Lower(text)[j])
      ensures InSomeWord(Lower(text)[j], TokenizeSimple(text))
    {
      var c := Lower(text)[j];
      assert c in cleaned;
      var j' :| 0 <= j' < |cleaned| && cleaned[j'] == c;
      assert !IsSpace(cleaned[j']);
    }
  }

  /** Lowering the input first does not change the tokens. */
  lemma TokenizeSimpleIgnoresCase(text: string)
    ensures TokenizeSimple(Lower(text)) == TokenizeSimple(text)
  {
    LowerIdempotent(text);
  }

  /** `pos_tag_simple`: every token tagged as a noun. */
  function PosTagSimple(tokens: seq<string>): (r: seq<(string, string)>)
    ensures |r| == |tokens|
    ensures forall i :: 0 <= i < |r| ==> r[i].1 == "NN"
  {
    seq(|tokens|, i requires 0 <= i < |tokens| => (tokens[i], "NN"))
  }

  /** The tokens of a tagged sequence, in order. */
  function Untag(tagged: seq<(string, string)>): (r: seq<string>)
    ensures |r| == |tagged|
  {
    seq(|tagged|, i requires 0 <= i < |tagged| => tagged[i].0)
  }

  /** Tagging keeps the tokens and their order: dropping the tags gives the input back. */
  lemma PosTagSimpleKeepsTokens(tokens: seq<string>)
    ensures Untag(PosTagSimple(tokens)) == tokens
  {
  }
}
